=== FILE: README.md ===
# vfspp merged entries in Dafny

A model of `vfspp::merged::MergedEntry`, the engine of the vfspp union
filesystem. A merged filesystem stacks an ordered list of backing
filesystems ("backends") into one tree. Each merged entry:

- builds a cache of its children lazily, guarded by a dirty flag;
- merges the children of every readable backend, where the first backend
  to report a path wins;
- resolves `/`-separated paths through that cache;
- delegates `open`, `deleteChild` and `createEntry` to the backends in
  priority order. An error from one backend only moves the search on to
  the next backend.

Modules, leaf first:

- `Common`: `Option`, the per-call `Reply` of a backend, and the
  `Outcome` of an operation. An `Outcome` is a value, an
  `InvalidOperationException` with its reason, or a `FileSystemException`.
- `Backends`: a backend is an immutable value. It holds its capability
  mask, its root entry, and what `getRootEntry()->getChild(path)` returns
  for each path. This module also defines the filesystem (backends plus
  its `supportedOperations()` mask) and the OR of the backend masks.
- `MergedTree`: merged entries live in an arena `Heap` and refer to each
  other by index. A parent's ordered child list and its name map
  therefore point at the very same child entries, as the shared pointers
  do in C++.
  - `Valid` is the well-formedness invariant: list and map agree, and no
    path is cached twice.
  - `NewEntry` is the constructor.
  - `GetType` is `getType`.
- `Shadowing`: `FirstSeen` is the reference for "first reported wins". It
  keeps an entry only when its path was not reported earlier.
- `Caching`: `addChildren` and `cacheChildren`, written as folds that
  thread the heap, the list and the map. The lemmas prove that the fold
  builds exactly `FirstSeen` of the backends' contributions in priority
  order.
- `Resolution`: `getEntryInternal` with a reference walk over path
  segments, then `getChild`, `numChildren` and `listChildren`.
- `Delegation`: `open`, `deleteChild` and `createEntry`. Each is a scan
  over the backends, checked against the exact list of backends that get
  called. `open` and `createEntry` are also checked against the first
  backend that succeeds, and `deleteChild` against whether any eligible
  backend deleted the child.
- `Coherence`: what `createEntry` does to a cached listing.
- `StaleLookup`: the resolution finding below, both as written and
  corrected.

A lookup of `a/b` is expected to consult a fresh map at every level. The
code rebuilds only the entry `getChild` is called on. The model follows the
code and records the difference under Findings.

## Model

| member | source | states |
|---|---|---|
| Caching.AddChild | src/merged/MergedEntry.cpp:33-40 | One step of the `addChildren` loop adds the child's path to the map and nothing else. Existing heap entries are unchanged, and the list and the heap grow together by at most one. |
| Caching.AddAll | src/merged/MergedEntry.cpp:30-42 | The `addChildren` loop adds exactly the children's paths to the map. Existing heap entries are unchanged, and the list and the heap grow together by at most the number of children. |
| Caching.AddChildren | src/merged/MergedEntry.cpp:21-43 | A non-directory backend entry adds nothing. A directory adds exactly its children's paths to the map, without changing existing heap entries. |
| Caching.AddBackend | src/merged/MergedEntry.cpp:52-67 | One backend's turn adds exactly the paths of that backend's contribution to the map, without changing existing heap entries. |
| Caching.CacheFold | src/merged/MergedEntry.cpp:50-68 | The loop over the backends adds exactly the paths of all their contributions to the map, without changing existing heap entries. |
| Caching.Readers | src/merged/MergedEntry.cpp:50-53 | The backends consulted for a listing are exactly those that support reading. |
| Resolution.GetEntryInternal | src/merged/MergedEntry.cpp:73-99 | A found entry lies later in the heap than the one searched. A name without a separator is found exactly when it is in the map. Whatever is found had its first segment in the map. |
| MergedTree.RootHeapValid | src/merged/MergedEntry.cpp:15-19 | A new merged filesystem's root entry starts dirty with an empty cache, is well formed, and is a directory. |
| Resolution.RootEnumerates | src/merged/MergedEntry.cpp:191-202 | The root is a directory whatever the backends report, so counting its children never fails. The count is the size of the union of the readable backends' root listings. |
| Resolution.ChildTypeIsFirstDiscovered | src/merged/MergedEntry.cpp:191-202 | A child created by a rebuild reports the type of the backend entry that won its path. A child whose path is empty counts as a root and is a directory. |
| Caching.AddAllSpec | src/merged/MergedEntry.cpp:21-43 | The `addChildren` loop adds one fresh entry for each child whose path is not yet listed, in the order the children come. Children whose path is already listed are ignored. |
| Caching.AddBackendSpec | src/merged/MergedEntry.cpp:50-68 | One backend's turn in `cacheChildren` extends the listing by exactly that backend's contribution. A backend contributes nothing if it cannot read, lacks the path, or has a non-directory there. The root uses the backend's root entry. |
| Caching.CacheFoldSpec | src/merged/MergedEntry.cpp:45-71 | After the loop over all backends, the list and map are exactly the first-seen union of the contributions, in priority order. |
| Caching.CacheChildren | src/merged/MergedEntry.cpp:45-71 | The old cache is discarded. The new list holds one fresh entry per merged child, in order, and the map sends each child's path to that entry. The entry is marked clean and no other entry changes. |
| Caching.RebuiltShape | src/merged/MergedEntry.cpp:33-40 | After a rebuild, the list and the map hold the same child entries, each under the path it reports, and no path appears twice. |
| Caching.CacheChildrenValid | src/merged/MergedEntry.cpp:45-71 | Rebuilding any entry keeps the whole heap well formed. |
| Resolution.CacheChildrenCurrent | src/merged/MergedEntry.cpp:45-71 | If every clean cache agreed with the backends, it still does after a rebuild. Agreeing means that the map holds exactly the paths the backends report under the entry's path, and each one leads to an entry wrapping the first report of that path. The rebuilt cache agrees, entries the other caches lead to keep what they wrap, and the new children start dirty. |
| Caching.OnlyReadersContribute | src/merged/MergedEntry.cpp:50-53 | Dropping the backends without read support leaves the merged listing unchanged. |
| Caching.EarliestBackendWins | src/merged/MergedEntry.cpp:33-40 | If backend `i` is the first to report path `k`, the merged listing holds exactly one entry under `k`: the first one backend `i` reported. Later backends are shadowed. |
| Shadowing.FirstSeenKeys | src/merged/MergedEntry.cpp:30-42 | Shadowing loses no path: the merged listing covers exactly the reported paths. |
| Shadowing.FirstSeenDistinct | src/merged/MergedEntry.cpp:33-40 | The merged listing never holds two entries with the same path. |
| Shadowing.FirstSeenIsFirst | src/merged/MergedEntry.cpp:33-40 | The entry listed for a path is the earliest one reported under it. |
| Shadowing.FirstSeenOrdered | src/merged/MergedEntry.cpp:30-42 | The listing is in order of each path's first report. |
| Resolution.RebuiltLookup | src/merged/MergedEntry.cpp:33-40 | After a rebuild, a name is in the map exactly when some readable backend reports it here. It maps to a fresh entry wrapping the first such report. |
| Resolution.ResolveWalks | src/merged/MergedEntry.cpp:73-99 | `getEntryInternal` returns what walking the segments of the path through the name maps, one map per segment, returns. A miss at any level is null. |
| Resolution.JoinSplit | src/merged/MergedEntry.cpp:75-93 | Splitting a path at its separators loses nothing: joining the segments gives the path back. |
| Resolution.SplitJoin | src/merged/MergedEntry.cpp:75-93 | Separator-free segments joined and split again come back unchanged. |
| Resolution.Refresh | src/merged/MergedEntry.cpp:108-111 | A clean entry leaves the heap exactly as it was; a dirty one is rebuilt by `cacheChildren`. Afterwards the entry is clean and well formed, other entries are untouched, and clean caches that matched the backends still do. |
| Resolution.GetChild | src/merged/MergedEntry.cpp:101-114 | A non-directory is refused with no change. Otherwise the cache is rebuilt only if dirty, and the result is the segment walk of the normalized path, or null. |
| Resolution.LookupAfterRebuild | src/merged/MergedEntry.cpp:101-114 | On a dirty directory, a single name is found exactly when some readable backend reports it. What is found wraps the first report. |
| Resolution.NumChildren | src/merged/MergedEntry.cpp:116-129 | A non-directory is refused. Otherwise the heap left is the one `getChild` would leave (rebuilt only if dirty), and the count is the size of the cached list in it: the number of merged children after a rebuild, and the old list's size with the heap unchanged when clean. |
| Resolution.ListChildren | src/merged/MergedEntry.cpp:131-146 | A non-directory is refused. Otherwise the heap left is the one `getChild` would leave (rebuilt only if dirty), and the output is the cached list in it: after a rebuild one fresh entry per merged child in order, and the old list with the heap unchanged when clean. |
| Resolution.CountMatchesListing | src/merged/MergedEntry.cpp:116-146 | `numChildren()` equals the length of what `listChildren` produces from the same state, and both leave the same heap. |
| Resolution.ListingIsIdempotent | src/merged/MergedEntry.cpp:131-146 | Listing twice in a row gives the same list and does not rebuild again. |
| Delegation.EligiblesMembers | src/merged/MergedEntry.cpp:162-168 | The backends that get called are exactly those supporting the operation whose root resolves the path to the right type. Each is called once, in priority order. |
| Delegation.OpenScan | src/merged/MergedEntry.cpp:162-188 | The scan returns the stream of the first eligible backend whose `open` yields non-null, after calling exactly the eligible backends up to it. If there is none, it fails after calling all eligible backends. |
| Delegation.Open | src/merged/MergedEntry.cpp:148-189 | The aggregate mask check comes first, then the file check, then the scan's result. |
| Delegation.OpenStopsAtFirstSuccess | src/merged/MergedEntry.cpp:172-178 | Backends after one that opens the file are never consulted: changing their replies changes nothing. |
| Delegation.OpenSkipsFailingBackends | src/merged/MergedEntry.cpp:170-183 | Exceptions from earlier backends do not stop the search: the first backend that opens the file still wins. |
| Delegation.DeleteScan | src/merged/MergedEntry.cpp:216-237 | Every eligible backend is called, even after a success. The result is true exactly when some backend deleted the child, and an exception counts as false. |
| Delegation.DeleteChild | src/merged/MergedEntry.cpp:204-238 | A missing delete capability is refused, then a non-directory; both are refused before any backend is called. Otherwise the result is the OR over all eligible backends. |
| Delegation.CreateScan | src/merged/MergedEntry.cpp:252-278 | The first eligible backend whose `createEntry` yields non-null wins, and no later backend is called. If none succeeds, the result is null. |
| Delegation.CreateEntry | src/merged/MergedEntry.cpp:240-279 | A missing create capability is refused, then a non-directory. On success one fresh merged entry wraps the created backend entry, and existing entries are unchanged. |
| Delegation.ReadOnlyUnionRefusesCreate | src/merged/MergedEntry.cpp:242-245 | When the filesystem's mask is the OR of its backends' masks and no backend can create, `createEntry` is refused without calling any backend. |
| Backends.AggregateSupports | src/merged/MergedEntry.cpp:152-155 | The OR of the backends' masks supports an operation exactly when some backend does. |
| MergedTree.AppendValid | src/merged/MergedEntry.cpp:264-268 | Allocating the entry `createEntry` returns keeps the heap well formed. |
| Coherence.CreateLeavesListingStale | src/merged/MergedEntry.cpp:240-278 | `createEntry` does not invalidate a built cache: afterwards the directory's count and listing are unchanged, and they do not include the created entry. |
| StaleLookup.DeepPathMissesAfterRebuild | src/merged/MergedEntry.cpp:86-96 | As written, right after a dirty directory is rebuilt, every path containing a separator resolves to null, because its children start dirty with empty maps. |
| StaleLookup.NestedFileMissed | src/merged/MergedEntry.cpp:86-96 | As written, with one backend holding `dir/file`, `getChild("dir/file")` on a fresh root returns null. |
| StaleLookup.ResolveFresh | src/merged/MergedEntry.cpp:73-99 | Corrected resolution rebuilds each dirty entry before consulting its map. Its result is what `getEntryInternal` finds in the heap it leaves, every map consulted is clean, and earlier entries are untouched. When every clean cache agreed with the backends beforehand, it still does afterwards. A single name is then found exactly when some readable backend reports it, and the entry found wraps the first backend's report. |
| StaleLookup.GetChildFresh | src/merged/MergedEntry.cpp:101-114 | `getChild` with the corrected resolution: the same guard, and a result that agrees with `getEntryInternal` over clean maps only. When every clean cache agreed with the backends beforehand, it still does afterwards, and a single name resolves to the entry wrapping the first backend's report. |
| StaleLookup.NestedFileFound | src/merged/MergedEntry.cpp:86-96 | With the corrected resolution, `getChild("dir/file")` on a fresh root finds the backend's file, when each entry reports its last segment as its path. |
| StaleLookup.NestedFullPathMissed | src/merged/MergedEntry.cpp:33-40 | When the file instead reports its full path `dir/file`, the corrected resolution still returns null. `dir`'s map is keyed by the reported path (:34, :39), while the lookup inside `dir` uses the last segment `file` (:79). |

## Left out

- Stream contents: `open` returns an opaque `Buffer` token, and no I/O happens.
- `normalizePath` and `modeToOperation` are not defined in the modelled file. They are function parameters.
- `MergedFileSystem` is not part of this model. Its backend list and its `supportedOperations()` mask are inputs. The mask is related to the backends' masks only where a lemma states that as a precondition.
- Backend entries are immutable values. `getRootEntry()->getChild(path)` is a finite lookup table per backend, and `listChildren` is the entry's `children`.
- Exceptions that the code does not catch are not modelled. This covers exceptions from a backend's `getChild`, `listChildren` or `getRootEntry`. The inputs are total instead.
- What each backend's `open`, `deleteChild` and `createEntry` does is an oracle indexed by the backend's position, either a returned value or a thrown `FileSystemException`. One oracle describes one call, so the mode, name and type arguments are not passed to it.
- Shared-pointer ownership and the `parentSystem` back pointer are not modelled. Entries dropped by a rebuild stay in the arena, unreachable.
- The values of `OP_READ`, `OP_WRITE`, `OP_CREATE` and `OP_DELETE` (taken as 1, 2, 4, 8), `DirectorySeparatorChar` (taken as `/`) and `isRoot()` (taken as "the path is empty") come from headers that are not part of this model.
- Delegation.DeleteChild: takes the merged entry's value and returns no heap. That it leaves the dirty flag and the cache alone therefore holds by construction and is not stated as a lemma.
- Cache invalidation after `createEntry` and `deleteChild`: the code does none, and neither does the model (see `Coherence.CreateLeavesListingStale`).
- The map is keyed by the path each backend entry reports, while lookup uses path segments. The model keeps the reported path as the key and does not reconcile the two: nested lookups succeed only where entries report their last segment (see `StaleLookup.NestedFullPathMissed`).
- Exception messages are not modelled; only the reason (no capable filesystem, not a directory, not a file) is kept.
- Concurrency: the code has no synchronisation, and the model is sequential.

## Findings

| source | as written | input that shows it | evidently intended | confidence | as-written member | corrected member |
|---|---|---|---|---|---|---|
| src/merged/MergedEntry.cpp:86-96 | `getEntryInternal` descends into the child found for the first segment and calls that child's `getEntryInternal` directly. That skips the dirty check `getChild` does, so a child created by a rebuild (dirty, empty map) resolves nothing. | One readable backend whose root holds a directory `dir` (say `docs`), which holds a file that reports its bare name `file` (say `readme.txt`). `getChild("docs/readme.txt")` on the fresh root returns null, and so does every such path. | Each entry whose map is consulted is rebuilt first when dirty. This returns the entry for `readme.txt` only where each entry's reported path is its last segment. With full reported paths, as the backend lookups at :60 and :166 need, the segment lookup at :79 and :90 still misses (`StaleLookup.NestedFullPathMissed`; see the keying line under Left out). | medium, not executed | StaleLookup.NestedFileMissed | StaleLookup.GetChildFresh |

=== FILE: backends.dfy ===
/** The backing filesystems, seen only through the narrow interface the merge
    layer uses: a capability mask, a root entry, and a lookup from the root. */
module Backends {
  import opened Common

  datatype EntryType = File | Directory

  /** A capability mask; the source keeps it in an `int`. */
  type Mask = bv32

  const OpRead: Mask := 1
  const OpWrite: Mask := 2
  const OpCreate: Mask := 4
  const OpDelete: Mask := 8

  /** `mask & ops` taken as a truth value: at least one requested bit is present. */
  predicate Supports(mask: Mask, ops: Mask) {
    mask & ops != 0
  }

  /** One entry of a backend: the path it reports, its type, and what its
      `listChildren` yields. */
  datatype BEntry = BEntry(path: string, kind: EntryType, children: seq<BEntry>)

  /** A backend. `lookup` is what `getRootEntry()->getChild(p)` returns for
      each path `p`; a missing key is a null result. */
  datatype Backend = Backend(ops: Mask, root: BEntry, lookup: map<string, BEntry>) {
    function GetChild(path: string): (r: Option<BEntry>) {
      if path in lookup then Some(lookup[path]) else None
    }
  }

  /** The merged filesystem: backends in priority order, and the mask its
      `supportedOperations()` reports. */
  datatype MergedFs = MergedFs(backends: seq<Backend>, supported: Mask)

  /** The bitwise OR of all backend masks. */
  function AggregateMask(bs: seq<Backend>): (m: Mask)
  {
    if bs == [] then 0 else bs[0].ops | AggregateMask(bs[1..])
  }

  /** One step of the OR: a union of two masks supports `ops` when either does. */
  lemma OrSupports(a: Mask, b: Mask, ops: Mask)
    ensures Supports(a | b, ops) <==> Supports(a, ops) || Supports(b, ops)
  {
    assert (a | b) & ops == (a & ops) | (b & ops);
  }

  /** The aggregate mask supports `ops` exactly when some backend does, so a
      filesystem whose mask is this aggregate rejects an operation up front
      exactly when the delegation loop would find no capable backend. */
  lemma {:induction false} AggregateSupports(bs: seq<Backend>, ops: Mask)
    ensures Supports(AggregateMask(bs), ops) <==> exists i :: 0 <= i < |bs| && Supports(bs[i].ops, ops)
  {
    if bs == [] {
      assert AggregateMask(bs) & ops == 0;
    } else {
      var a, rest := bs[0].ops, AggregateMask(bs[1..]);
      assert AggregateMask(bs) == a | rest;
      AggregateSupports(bs[1..], ops);
      OrSupports(a, rest, ops);
      assert forall i :: 0 < i < |bs| ==> bs[i] == bs[1..][i - 1];
    }
  }
}

=== FILE: caching.dfy ===
/** Building a merged entry's child cache: `addChildren` and `cacheChildren`.
    The loops are folds that thread the heap, the ordered child list and the
    name map; their result is characterised by `Shadowing.FirstSeen`. */
module Caching {
  import opened Common
  import opened Backends
  import opened MergedTree
  import opened Shadowing

  /** The state `cacheChildren` accumulates: the heap (new child entries are
      allocated in it), the ordered child list and the name map. */
  datatype Build = Build(heap: Heap, entries: seq<NodeId>, mapping: map<string, NodeId>)

  /** One iteration of the loop in `addChildren`: a child whose path is not
      yet in the map is wrapped in a new entry and added to list and map; a
      child whose path is already there is ignored. */
  function AddChild(st: Build, c: BEntry): (r: Build)
    ensures r.mapping.Keys == st.mapping.Keys + {c.path}
    ensures |r.heap| >= |st.heap| && r.heap[..|st.heap|] == st.heap
    ensures |r.entries| - |st.entries| == |r.heap| - |st.heap| <= 1
  {
    if c.path in st.mapping then st
    else
      var n := |st.heap|;
      Build(st.heap + [NewEntry(Some(c))], st.entries + [n], st.mapping[c.path := n])
  }

  /** The loop of `addChildren` over the children of one backend entry. The
      map gains exactly the children's paths; existing entries stay as they
      were, and list and heap grow together. */
  function AddAll(st: Build, cs: seq<BEntry>): (r: Build)
    ensures r.mapping.Keys == st.mapping.Keys + Keys(cs)
    ensures |r.heap| >= |st.heap| && r.heap[..|st.heap|] == st.heap
    ensures |r.entries| - |st.entries| == |r.heap| - |st.heap| <= |cs|
    decreases |cs|
  {
    if cs == [] then st
    else
      var st' := AddChild(st, cs[0]);
      var r := AddAll(st', cs[1..]);
      KeysCons(cs);
      assert r.heap[..|st.heap|] == r.heap[..|st'.heap|][..|st.heap|];
      r
  }

  /** `addChildren`: a backend entry that is not a directory adds nothing;
      a directory adds the paths of its children. */
  function AddChildren(st: Build, e: BEntry): (r: Build)
    ensures r.mapping.Keys == st.mapping.Keys + (if e.kind == Directory then Keys(e.children) else {})
    ensures |r.heap| >= |st.heap| && r.heap[..|st.heap|] == st.heap
  {
    if e.kind != Directory then st else AddAll(st, e.children)
  }

  /** One iteration of the loop in `cacheChildren`. Only a backend
      supporting reading is asked; the root merges the backend's root entry,
      any other path merges what the backend finds at that path. The map
      gains exactly the paths the backend contributes. */
  function AddBackend(st: Build, b: Backend, path: string): (r: Build)
    ensures r.mapping.Keys == st.mapping.Keys + Keys(Contribution(b, path))
    ensures |r.heap| >= |st.heap| && r.heap[..|st.heap|] == st.heap
  {
    if !Supports(b.ops, OpRead) then st
    else if path == "" then AddChildren(st, b.root)
    else match b.GetChild(path)
      case None => st
      case Some(e) => AddChildren(st, e)
  }

  /** The loop of `cacheChildren` over the backends in priority order. The
      map gains exactly the paths some backend contributes, and existing
      entries stay as they were. */
  function CacheFold(st: Build, bs: seq<Backend>, path: string): (r: Build)
    ensures r.mapping.Keys == st.mapping.Keys + Keys(Flatten(bs, path))
    ensures |r.heap| >= |st.heap| && r.heap[..|st.heap|] == st.heap
    decreases |bs|
  {
    if bs == [] then st
    else
      var st' := AddBackend(st, bs[0], path);
      var r := CacheFold(st', bs[1..], path);
      KeysAppend(Contribution(bs[0], path), Flatten(bs[1..], path));
      assert r.heap[..|st.heap|] == r.heap[..|st'.heap|][..|st.heap|];
      r
  }

  /** The entries one backend offers for the merged directory at `path`:
      nothing unless it supports reading, has an entry at that path, and that
      entry is a directory. */
  function Contribution(b: Backend, path: string): (cs: seq<BEntry>)
    ensures cs != [] ==> Supports(b.ops, OpRead)
  {
    if !Supports(b.ops, OpRead) then []
    else
      var found := if path == "" then Some(b.root) else b.GetChild(path);
      if found.Some? && found.value.kind == Directory then found.value.children else []
  }

  /** All backends' contributions, concatenated in priority order. */
  function Flatten(bs: seq<Backend>, path: string): (s: seq<BEntry>)
    decreases |bs|
  {
    if bs == [] then [] else Contribution(bs[0], path) + Flatten(bs[1..], path)
  }

  /** What the merged directory at `path` should list. */
  function MergedChildren(bs: seq<Backend>, path: string): (d: seq<BEntry>) {
    FirstSeen(Flatten(bs, path))
  }

  /** `st` extends `h0` by exactly one fresh entry per element of `d`, listed
      in order and mapped by path. */
  ghost predicate Built(st: Build, h0: Heap, d: seq<BEntry>) {
    && |st.heap| == |h0| + |d|
    && st.heap[..|h0|] == h0
    && (forall j :: 0 <= j < |d| ==> st.heap[|h0| + j] == NewEntry(Some(d[j])))
    && |st.entries| == |d|
    && (forall j :: 0 <= j < |d| ==> st.entries[j] == |h0| + j)
    && st.mapping.Keys == Keys(d)
    && (forall j :: 0 <= j < |d| ==> st.mapping[d[j].path] == |h0| + j)
  }

  /** Unfolding `FirstSeen` at its last element. */
  lemma FirstSeenSnoc(q: seq<BEntry>, c: BEntry)
    ensures FirstSeen(q + [c]) == FirstSeen(q) + (if c.path in Keys(q) then [] else [c])
  {
    var s := q + [c];
    assert s[..|s| - 1] == q;
  }

  /** Adding a child whose path is new extends the listing by that child. */
  lemma AddNewChild(st: Build, h0: Heap, d: seq<BEntry>, c: BEntry)
    requires Built(st, h0, d) && c.path !in Keys(d)
    ensures Built(AddChild(st, c), h0, d + [c])
  {
    AddNewChildHeap(st, h0, d, c);
    AddNewChildMap(st, h0, d, c);
  }

  /** The heap and list half of `AddNewChild`. */
  lemma AddNewChildHeap(st: Build, h0: Heap, d: seq<BEntry>, c: BEntry)
    requires Built(st, h0, d) && c.path !in Keys(d)
    ensures var st', d' := AddChild(st, c), d + [c];
      && |st'.heap| == |h0| + |d'| && st'.heap[..|h0|] == h0
      && (forall j :: 0 <= j < |d'| ==> st'.heap[|h0| + j] == NewEntry(Some(d'[j])))
      && |st'.entries| == |d'| && (forall j :: 0 <= j < |d'| ==> st'.entries[j] == |h0| + j)
  {
    var st' := AddChild(st, c);
    assert st'.heap[..|h0|] == st.heap[..|h0|];
  }

  /** The map half of `AddNewChild`. */
  lemma AddNewChildMap(st: Build, h0: Heap, d: seq<BEntry>, c: BEntry)
    requires Built(st, h0, d) && c.path !in Keys(d)
    ensures var st', d' := AddChild(st, c), d + [c];
      && st'.mapping.Keys == Keys(d')
      && (forall j :: 0 <= j < |d'| ==> st'.mapping[d'[j].path] == |h0| + j)
  {
    var st' := AddChild(st, c);
    var d' := d + [c];
    KeysAppend(d, [c]);
    forall j | 0 <= j < |d| ensures d[j].path != c.path {
      assert d[j] in d;
    }
    forall j | 0 <= j < |d'| ensures st'.mapping[d'[j].path] == |h0| + j {
      if j < |d| {
        assert d'[j] == d[j];
      }
    }
  }

  lemma AddChildStep(st: Build, h0: Heap, q: seq<BEntry>, c: BEntry)
    requires Built(st, h0, FirstSeen(q))
    ensures Built(AddChild(st, c), h0, FirstSeen(q + [c]))
  {
    FirstSeenSnoc(q, c);
    FirstSeenKeys(q);
    AddChildBuilt(st, h0, FirstSeen(q), c);
  }

  /** One step of the loop keeps `Built`, whether the child is new or not. */
  lemma AddChildBuilt(st: Build, h0: Heap, d: seq<BEntry>, c: BEntry)
    requires Built(st, h0, d)
    ensures Built(AddChild(st, c), h0, d + (if c.path in Keys(d) then [] else [c]))
  {
    if c.path !in Keys(d) {
      AddNewChild(st, h0, d, c);
    } else {
      assert d + [] == d;
    }
  }

  /** Unfolding the loop and the concatenation at the first child. */
  lemma AddAllUnfold(st: Build, q: seq<BEntry>, cs: seq<BEntry>)
    requires cs != []
    ensures AddAll(st, cs) == AddAll(AddChild(st, cs[0]), cs[1..])
    ensures q + cs == (q + [cs[0]]) + cs[1..]
  {
    assert cs == [cs[0]] + cs[1..];
  }

  lemma {:induction false} AddAllSpec(st: Build, h0: Heap, q: seq<BEntry>, cs: seq<BEntry>)
    requires Built(st, h0, FirstSeen(q))
    ensures Built(AddAll(st, cs), h0, FirstSeen(q + cs))
    decreases |cs|
  {
    if cs == [] {
      assert q + cs == q;
    } else {
      AddAllUnfold(st, q, cs);
      AddChildStep(st, h0, q, cs[0]);
      AddAllSpec(AddChild(st, cs[0]), h0, q + [cs[0]], cs[1..]);
    }
  }

  /** One backend adds exactly what it contributes. */
  lemma AddBackendContributes(st: Build, b: Backend, path: string)
    ensures AddBackend(st, b, path) == AddAll(st, Contribution(b, path))
  {
    assert AddAll(st, []) == st;
  }

  /** One backend's turn extends the listing by its contribution. */
  lemma AddBackendSpec(st: Build, h0: Heap, q: seq<BEntry>, b: Backend, path: string)
    requires Built(st, h0, FirstSeen(q))
    ensures Built(AddBackend(st, b, path), h0, FirstSeen(q + Contribution(b, path)))
  {
    AddBackendContributes(st, b, path);
    AddAllSpec(st, h0, q, Contribution(b, path));
  }

  /** Unfolding the fold and the concatenation at the first backend. */
  lemma CacheFoldUnfold(st: Build, q: seq<BEntry>, bs: seq<Backend>, path: string)
    requires bs != []
    ensures CacheFold(st, bs, path) == CacheFold(AddBackend(st, bs[0], path), bs[1..], path)
    ensures q + Flatten(bs, path) == (q + Contribution(bs[0], path)) + Flatten(bs[1..], path)
  {
  }

  lemma {:induction false} CacheFoldSpec(st: Build, h0: Heap, q: seq<BEntry>, bs: seq<Backend>, path: string)
    requires Built(st, h0, FirstSeen(q))
    ensures Built(CacheFold(st, bs, path), h0, FirstSeen(q + Flatten(bs, path)))
    decreases |bs|
  {
    if bs == [] {
      assert q + Flatten(bs, path) == q;
    } else {
      CacheFoldUnfold(st, q, bs, path);
      AddBackendSpec(st, h0, q, bs[0], path);
      CacheFoldSpec(AddBackend(st, bs[0], path), h0, q + Contribution(bs[0], path), bs[1..], path);
    }
  }

  /** `h'` is `h` with the cache of entry `id` rebuilt to list `d`: one fresh
      entry per element of `d` is appended, in order; the list of `id` holds
      them in that order, and its map sends each of their paths to its entry;
      `id` keeps what it wraps and is clean; no other existing entry changes. */
  ghost predicate RebuiltAs(h: Heap, h': Heap, id: NodeId, d: seq<BEntry>)
    requires id < |h|
  {
    && |h'| == |h| + |d|
    && (forall i :: 0 <= i < |h| && i != id ==> h'[i] == h[i])
    && h'[id].contained == h[id].contained && !h'[id].dirty
    && |h'[id].entries| == |d|
    && (forall j :: 0 <= j < |d| ==> h'[id].entries[j] == |h| + j && h'[|h| + j] == NewEntry(Some(d[j])))
    && h'[id].mapping.Keys == Keys(d)
    && (forall j :: 0 <= j < |d| ==> h'[id].mapping[d[j].path] == |h| + j)
  }

  /** `cacheChildren`: the cache is cleared, rebuilt from the backends and
      marked clean; the new list is `MergedChildren`, so nothing from the
      previous cache survives. */
  function CacheChildren(h: Heap, id: NodeId, fs: MergedFs): (h': Heap)
    requires id < |h|
    ensures RebuiltAs(h, h', id, MergedChildren(fs.backends, h[id].Path()))
  {
    var st := CacheFold(Build(h, [], map[]), fs.backends, h[id].Path());
    CacheFoldSpec(Build(h, [], map[]), h, [], fs.backends, h[id].Path());
    assert [] + Flatten(fs.backends, h[id].Path()) == Flatten(fs.backends, h[id].Path());
    assert forall i :: 0 <= i < |h| ==> st.heap[i] == st.heap[..|h|][i];
    st.heap[id := Node(h[id].contained, false, st.entries, st.mapping)]
  }

  /** Each path in `Keys(d)` is reported at some position of `d`. */
  lemma KeyPosition(d: seq<BEntry>, k: string) returns (j: nat)
    requires k in Keys(d)
    ensures j < |d| && d[j].path == k
  {
    var e :| e in d && e.path == k;
    j :| j < |d| && d[j] == e;
  }

  /** A rebuilt list without repeated paths gives an entry whose list and map
      hold the same fresh child entries, each under the path it reports, and
      no path listed twice. */
  lemma RebuiltShape(h: Heap, h': Heap, id: NodeId, d: seq<BEntry>)
    requires id < |h| && RebuiltAs(h, h', id, d)
    requires forall j1, j2 :: 0 <= j1 < j2 < |d| ==> d[j1].path != d[j2].path
    ensures ChildrenAfter(h', id) && CacheShape(h', id)
  {
    RebuiltListShape(h, h', id, d);
    RebuiltMapShape(h, h', id, d);
  }

  /** The list half of `RebuiltShape`: position `j` holds a later entry that
      reports `d[j]`'s path and is mapped under it. */
  lemma RebuiltListShape(h: Heap, h': Heap, id: NodeId, d: seq<BEntry>)
    requires id < |h| && RebuiltAs(h, h', id, d)
    ensures forall j :: 0 <= j < |h'[id].entries| ==>
      && id < h'[id].entries[j] < |h'| && h'[h'[id].entries[j]].Path() == d[j].path
      && d[j].path in h'[id].mapping && h'[id].mapping[d[j].path] == h'[id].entries[j]
  {
    forall j | 0 <= j < |h'[id].entries|
      ensures id < h'[id].entries[j] < |h'| && h'[h'[id].entries[j]].Path() == d[j].path
      ensures d[j].path in h'[id].mapping && h'[id].mapping[d[j].path] == h'[id].entries[j]
    {
      assert d[j] in d;
      assert h'[|h| + j] == NewEntry(Some(d[j]));
    }
  }

  /** The map half of `RebuiltShape`: every mapped name leads to a later
      listed entry that reports that name. */
  lemma RebuiltMapShape(h: Heap, h': Heap, id: NodeId, d: seq<BEntry>)
    requires id < |h| && RebuiltAs(h, h', id, d)
    ensures forall k :: k in h'[id].mapping ==>
      id < h'[id].mapping[k] < |h'| && h'[id].mapping[k] in h'[id].entries && h'[h'[id].mapping[k]].Path() == k
  {
    forall k | k in h'[id].mapping
      ensures id < h'[id].mapping[k] < |h'| && h'[id].mapping[k] in h'[id].entries && h'[h'[id].mapping[k]].Path() == k
    {
      var j := KeyPosition(d, k);
      assert h'[id].entries[j] == |h| + j;
      assert h'[|h| + j] == NewEntry(Some(d[j]));
    }
  }

  /** A rebuild that lists a single entry. */
  lemma RebuiltSingle(h: Heap, h': Heap, id: NodeId, e: BEntry)
    requires id < |h| && RebuiltAs(h, h', id, [e])
    ensures |h'| == |h| + 1 && h'[|h|] == NewEntry(Some(e))
    ensures h'[id].entries == [|h|] && h'[id].mapping == map[e.path := |h|]
  {
    assert Keys([e]) == {e.path} by { assert e in [e]; }
    assert h'[id].mapping[e.path] == |h| + 0;
  }

  /** Rebuilding one entry keeps the whole heap well formed. */
  lemma CacheChildrenValid(h: Heap, id: NodeId, fs: MergedFs)
    requires Valid(h) && id < |h|
    ensures Valid(CacheChildren(h, id, fs))
  {
    var h' := CacheChildren(h, id, fs);
    var d := MergedChildren(fs.backends, h[id].Path());
    FirstSeenDistinct(Flatten(fs.backends, h[id].Path()));
    RebuiltValid(h, h', id, d);
  }

  lemma RebuiltValid(h: Heap, h': Heap, id: NodeId, d: seq<BEntry>)
    requires Valid(h) && id < |h| && RebuiltAs(h, h', id, d)
    requires forall j1, j2 :: 0 <= j1 < j2 < |d| ==> d[j1].path != d[j2].path
    ensures Valid(h')
  {
    assert forall c :: 0 <= c < |h| ==> h'[c].Path() == h[c].Path();
    forall i | 0 <= i < |h'| ensures ChildrenAfter(h', i) && CacheShape(h', i) {
      if i >= |h| {
        assert h'[|h| + (i - |h|)] == NewEntry(Some(d[i - |h|]));
      } else if i != id {
        assert h'[i] == h[i];
        assert ChildrenAfter(h, i) && CacheShape(h, i);
      } else {
        RebuiltShape(h, h', id, d);
      }
    }
  }

  /** The backends of `bs` that support reading, in order. */
  function Readers(bs: seq<Backend>): (rs: seq<Backend>)
    ensures forall r :: r in rs ==> r in bs && Supports(r.ops, OpRead)
    ensures forall b :: b in bs && Supports(b.ops, OpRead) ==> b in rs
    decreases |bs|
  {
    if bs == [] then []
    else (if Supports(bs[0].ops, OpRead) then [bs[0]] else []) + Readers(bs[1..])
  }

  /** The backends that do not support reading can be dropped without
      changing the merged listing: only readers contribute. */
  lemma {:induction false} OnlyReadersContribute(bs: seq<Backend>, path: string)
    ensures Flatten(bs, path) == Flatten(Readers(bs), path)
    decreases |bs|
  {
    if bs != [] {
      var rest := Readers(bs[1..]);
      OnlyReadersContribute(bs[1..], path);
      if Supports(bs[0].ops, OpRead) {
        var rs := Readers(bs);
        assert rs == [bs[0]] + rest;
        assert rs[0] == bs[0] && rs[1..] == rest;
        assert Flatten(rs, path) == Contribution(bs[0], path) + Flatten(rest, path);
      } else {
        assert Readers(bs) == rest;
        assert Contribution(bs[0], path) == [];
        assert Flatten(bs, path) == [] + Flatten(bs[1..], path);
      }
    }
  }

  /** Concatenating contributions distributes over appending backends. */
  lemma {:induction false} FlattenAppend(a: seq<Backend>, b: seq<Backend>, path: string)
    ensures Flatten(a + b, path) == Flatten(a, path) + Flatten(b, path)
    decreases |a|
  {
    if a == [] {
      assert a + b == b;
    } else {
      assert (a + b)[0] == a[0] && (a + b)[1..] == a[1..] + b;
      FlattenAppend(a[1..], b, path);
    }
  }

  /** The concatenation splits around backend `i`. */
  lemma FlattenSplit(bs: seq<Backend>, path: string, i: nat)
    requires i < |bs|
    ensures Flatten(bs, path) == Flatten(bs[..i], path) + Contribution(bs[i], path) + Flatten(bs[i + 1..], path)
  {
    assert bs == bs[..i] + ([bs[i]] + bs[i + 1..]);
    FlattenAppend(bs[..i], [bs[i]] + bs[i + 1..], path);
    FlattenAppend([bs[i]], bs[i + 1..], path);
    assert [bs[i]][1..] == [];
  }

  /** A path reported by no earlier backend lies outside what they contribute. */
  lemma {:induction false} FlattenKeys(bs: seq<Backend>, path: string, k: string)
    requires forall j :: 0 <= j < |bs| ==> k !in Keys(Contribution(bs[j], path))
    ensures k !in Keys(Flatten(bs, path))
    decreases |bs|
  {
    if bs != [] {
      FlattenKeys(bs[1..], path, k);
      KeysAppend(Contribution(bs[0], path), Flatten(bs[1..], path));
    }
  }

  /** The first entry under `k` in the whole concatenation is the first one
      backend `i` reports, when no earlier backend reports `k`. */
  lemma FirstReportFromBackend(bs: seq<Backend>, path: string, i: nat, k: string)
    requires i < |bs| && k in Keys(Contribution(bs[i], path))
    requires forall j :: 0 <= j < i ==> k !in Keys(Contribution(bs[j], path))
    ensures k in Keys(Flatten(bs, path))
    ensures var s := Flatten(bs, path); var c := Contribution(bs[i], path);
      s[FirstIndexOf(s, k)] == c[FirstIndexOf(c, k)]
  {
    var pre := bs[..i];
    FlattenSplit(bs, path, i);
    assert forall j :: 0 <= j < |pre| ==> pre[j] == bs[j];
    FlattenKeys(pre, path, k);
    FirstIndexOfMiddle(Flatten(pre, path), Contribution(bs[i], path), Flatten(bs[i + 1..], path), k);
  }

  /** Priority shadowing: when backend `i` is the first backend to report
      path `k` for the merged directory, the merged listing holds exactly one
      entry under `k`, and it is the first entry backend `i` reported under
      `k`. Entries of later backends with the same path are ignored. */
  lemma EarliestBackendWins(bs: seq<Backend>, path: string, i: nat, k: string)
    requires i < |bs| && k in Keys(Contribution(bs[i], path))
    requires forall j :: 0 <= j < i ==> k !in Keys(Contribution(bs[j], path))
    ensures var d := MergedChildren(bs, path); var c := Contribution(bs[i], path);
      exists j :: 0 <= j < |d| && d[j] == c[FirstIndexOf(c, k)]
        && forall j' :: 0 <= j' < |d| && d[j'].path == k ==> j' == j
  {
    var s := Flatten(bs, path);
    FirstReportFromBackend(bs, path, i, k);
    var d := FirstSeen(s);
    FirstSeenKeys(s);
    FirstSeenIsFirst(s);
    FirstSeenDistinct(s);
    var j := KeyPosition(d, k);
    assert d[j] == s[FirstIndexOf(s, d[j].path)];
    assert d == MergedChildren(bs, path);
    assert d[j] == Contribution(bs[i], path)[FirstIndexOf(Contribution(bs[i], path), k)];
  }
}

=== FILE: coherence.dfy ===
/** How the mutating operations interact with the child cache. Neither
    `createEntry` nor `deleteChild` marks the directory dirty, so a cached
    listing keeps showing what it showed before; only an entry that was
    never listed picks up the change on its first rebuild. */
module Coherence {
  import opened Common
  import opened Backends
  import opened MergedTree
  import opened Resolution
  import opened Delegation

  /** After `createEntry` on a directory whose cache is built, the heap is
      still well formed, the directory's count and listing are what they
      were, and the created entry is not among the listed ones. */
  lemma CreateLeavesListingStale(fs: MergedFs, h: Heap, id: NodeId, replies: nat -> Reply<Option<BEntry>>)
    requires Valid(h) && id < |h| && !h[id].dirty
    ensures var c := CreateEntry(fs, h, id, replies);
      && Valid(c.heap) && !c.heap[id].dirty
      && NumChildren(c.heap, id, fs).result == NumChildren(h, id, fs).result
      && ListChildren(c.heap, id, fs).result == ListChildren(h, id, fs).result
      && (c.result.Ok? && c.result.value.Some? ==> c.result.value.value !in c.heap[id].entries)
  {
    var c := CreateEntry(fs, h, id, replies);
    assert c.heap[id] == c.heap[..|h|][id];
    if c.heap != h {
      AppendValid(h, replies(FirstCreator(fs.backends, 0, h[id].Path(), replies).value).result);
      assert ChildrenAfter(h, id);
    }
  }
}

=== FILE: common.dfy ===
/** Small value types shared by every part of the merged-entry model. */
module Common {

  /** A possibly-null reference: `None` stands for an empty `shared_ptr`. */
  datatype Option<+T> = None | Some(value: T)

  /** What one call into a backend did: it returned a value, or it threw a
      `FileSystemException`, which the merge layer catches and skips. */
  datatype Reply<+T> = Returned(result: T) | Threw

  /** Why an `InvalidOperationException` was raised. */
  datatype Reason = NoCapableFilesystem | NotADirectory | NotAFile

  /** What the caller of a merged entry observes: a value, an
      `InvalidOperationException`, or the aggregate `FileSystemException`. */
  datatype Outcome<+T> = Ok(value: T) | InvalidOperation(reason: Reason) | FileSystemFailure
}

=== FILE: delegation.dfy ===
/** The operations a merged entry delegates to its backends: `open`,
    `deleteChild` and `createEntry`. Each loop is a fold over the backends in
    priority order; what each backend call does is supplied by an oracle
    `replies`, indexed by the backend's position. */
module Delegation {
  import opened Common
  import opened Backends
  import opened MergedTree

  /** A delegation's outcome, with the positions of the backends whose entry
      was actually called (in call order). */
  datatype Delegated<+T> = Delegated(result: Outcome<T>, tried: seq<nat>)

  /** An opened stream; its contents are not modelled. */
  datatype Buffer = Buffer(handle: nat)

  /** Backend `b` is asked: it supports one of `ops`, and its root resolves
      the entry's path to an entry of type `kind`. */
  predicate Eligible(b: Backend, path: string, ops: Mask, kind: EntryType) {
    Supports(b.ops, ops) && b.GetChild(path).Some? && b.GetChild(path).value.kind == kind
  }

  /** The positions in `[lo, hi)` of eligible backends, in order. */
  function Eligibles(bs: seq<Backend>, lo: nat, hi: nat, path: string, ops: Mask, kind: EntryType): (js: seq<nat>)
    requires hi <= |bs|
    decreases hi - lo
  {
    if lo >= hi then []
    else (if Eligible(bs[lo], path, ops, kind) then [lo] else []) + Eligibles(bs, lo + 1, hi, path, ops, kind)
  }

  /** The backends called are exactly the eligible ones in the range, each
      once, in increasing order. */
  lemma {:induction false} EligiblesMembers(bs: seq<Backend>, lo: nat, hi: nat, path: string, ops: Mask, kind: EntryType)
    requires hi <= |bs|
    ensures forall j :: j in Eligibles(bs, lo, hi, path, ops, kind) <==> lo <= j < hi && Eligible(bs[j], path, ops, kind)
    ensures forall a, b :: 0 <= a < b < |Eligibles(bs, lo, hi, path, ops, kind)| ==>
      Eligibles(bs, lo, hi, path, ops, kind)[a] < Eligibles(bs, lo, hi, path, ops, kind)[b]
    decreases hi - lo
  {
    if lo < hi {
      EligiblesMembers(bs, lo + 1, hi, path, ops, kind);
      var rest := Eligibles(bs, lo + 1, hi, path, ops, kind);
      assert forall b :: 0 <= b < |rest| ==> rest[b] in rest;
    }
  }

  // ---------------------------------------------------------------- open

  /** Backend `j` yields a stream: it is eligible and its `open` returned a
      non-null buffer. */
  predicate Opens(bs: seq<Backend>, j: nat, path: string, ops: Mask, replies: nat -> Reply<Option<Buffer>>)
    requires j < |bs|
  {
    Eligible(bs[j], path, ops, File) && replies(j).Returned? && replies(j).result.Some?
  }

  /** Reference: the first backend from position `i` on that yields a stream. */
  function FirstOpener(bs: seq<Backend>, i: nat, path: string, ops: Mask, replies: nat -> Reply<Option<Buffer>>): (r: Option<nat>)
    requires i <= |bs|
    ensures r.Some? ==> i <= r.value < |bs| && Opens(bs, r.value, path, ops, replies)
    ensures forall k :: i <= k < |bs| && (r.None? || k < r.value) ==> !Opens(bs, k, path, ops, replies)
    decreases |bs| - i
  {
    if i == |bs| then None
    else if Opens(bs, i, path, ops, replies) then Some(i)
    else FirstOpener(bs, i + 1, path, ops, replies)
  }

  /** The loop of `open` from backend `i` on: a null stream or a caught
      `FileSystemException` moves on to the next backend. The first backend
      that yields a stream wins and nothing after it is called; running out
      of backends is the aggregate failure. */
  function OpenScan(bs: seq<Backend>, i: nat, path: string, ops: Mask, replies: nat -> Reply<Option<Buffer>>): (r: Delegated<Buffer>)
    requires i <= |bs|
    ensures match FirstOpener(bs, i, path, ops, replies)
      case Some(j) => r == Delegated(Ok(replies(j).result.value), Eligibles(bs, i, j + 1, path, ops, File))
      case None => r == Delegated(FileSystemFailure, Eligibles(bs, i, |bs|, path, ops, File))
    decreases |bs| - i
  {
    if i == |bs| then Delegated(FileSystemFailure, [])
    else if !Eligible(bs[i], path, ops, File) then OpenScan(bs, i + 1, path, ops, replies)
    else match replies(i)
      case Returned(Some(buffer)) => Delegated(Ok(buffer), [i])
      case _ =>
        var rest := OpenScan(bs, i + 1, path, ops, replies);
        Delegated(rest.result, [i] + rest.tried)
  }

  /** `open`: refuses when the filesystem's mask has none of the operations
      the mode needs, then refuses an entry that is not a file; otherwise it
      returns the stream of the first capable backend holding the file that
      opens it, and fails with the aggregate error when none does. `replies`
      tells what each backend's `open(mode)` does in this call. */
  function Open(fs: MergedFs, node: Node, mode: int, modeToOperation: int -> Mask,
                replies: nat -> Reply<Option<Buffer>>): (r: Delegated<Buffer>)
    ensures var ops := modeToOperation(mode);
      if !Supports(fs.supported, ops) then r == Delegated(InvalidOperation(NoCapableFilesystem), [])
      else if node.GetType() != File then r == Delegated(InvalidOperation(NotAFile), [])
      else match FirstOpener(fs.backends, 0, node.Path(), ops, replies)
        case Some(j) => r == Delegated(Ok(replies(j).result.value), Eligibles(fs.backends, 0, j + 1, node.Path(), ops, File))
        case None => r == Delegated(FileSystemFailure, Eligibles(fs.backends, 0, |fs.backends|, node.Path(), ops, File))
  {
    var ops := modeToOperation(mode);
    if !Supports(fs.supported, ops) then Delegated(InvalidOperation(NoCapableFilesystem), [])
    else if node.GetType() != File then Delegated(InvalidOperation(NotAFile), [])
    else OpenScan(fs.backends, 0, node.Path(), ops, replies)
  }

  /** The first opener depends only on the replies up to and including it. */
  lemma {:induction false} FirstOpenerAgrees(bs: seq<Backend>, i: nat, path: string, ops: Mask,
                                             replies: nat -> Reply<Option<Buffer>>,
                                             replies': nat -> Reply<Option<Buffer>>, j: nat)
    requires i <= j < |bs| && Opens(bs, j, path, ops, replies)
    requires forall k :: i <= k <= j ==> replies'(k) == replies(k)
    ensures FirstOpener(bs, i, path, ops, replies') == FirstOpener(bs, i, path, ops, replies)
    decreases |bs| - i
  {
    assert replies'(i) == replies(i);
    if i < j {
      FirstOpenerAgrees(bs, i + 1, path, ops, replies, replies', j);
    }
  }

  /** Replies of backends after one that opens the file are never consulted:
      changing them does not change what `open` does. */
  lemma OpenStopsAtFirstSuccess(fs: MergedFs, node: Node, mode: int, modeToOperation: int -> Mask,
                                replies: nat -> Reply<Option<Buffer>>, replies': nat -> Reply<Option<Buffer>>, j: nat)
    requires j < |fs.backends| && Opens(fs.backends, j, node.Path(), modeToOperation(mode), replies)
    requires forall k :: 0 <= k <= j ==> replies'(k) == replies(k)
    ensures Open(fs, node, mode, modeToOperation, replies') == Open(fs, node, mode, modeToOperation, replies)
  {
    var ops := modeToOperation(mode);
    FirstOpenerAgrees(fs.backends, 0, node.Path(), ops, replies, replies', j);
    var f := FirstOpener(fs.backends, 0, node.Path(), ops, replies);
    assert f.Some? && f.value <= j;
    assert replies'(f.value) == replies(f.value);
  }

  /** A backend whose file throws does not stop the search: if backend `j`
      is the only one that opens the file, `open` returns its stream even
      though earlier backends holding the file failed. */
  lemma OpenSkipsFailingBackends(fs: MergedFs, node: Node, mode: int, modeToOperation: int -> Mask,
                                 replies: nat -> Reply<Option<Buffer>>, j: nat)
    requires Supports(fs.supported, modeToOperation(mode)) && node.GetType() == File
    requires j < |fs.backends| && Opens(fs.backends, j, node.Path(), modeToOperation(mode), replies)
    requires forall k :: 0 <= k < j ==> replies(k) == Threw
    ensures Open(fs, node, mode, modeToOperation, replies).result == Ok(replies(j).result.value)
  {
    var f := FirstOpener(fs.backends, 0, node.Path(), modeToOperation(mode), replies);
    assert f.Some? && f.value <= j;
  }

  // ---------------------------------------------------------------- deleteChild

  /** Backend `j` deleted the child: it is eligible and its `deleteChild`
      returned true. */
  predicate Deletes(bs: seq<Backend>, j: nat, path: string, replies: nat -> Reply<bool>)
    requires j < |bs|
  {
    Eligible(bs[j], path, OpDelete, Directory) && replies(j) == Returned(true)
  }

  /** The loop of `deleteChild` from backend `i` on: every eligible backend is
      called, even after an earlier success, and the outcomes are ORed; a
      caught exception counts as false. */
  function DeleteScan(bs: seq<Backend>, i: nat, path: string, replies: nat -> Reply<bool>): (r: Delegated<bool>)
    requires i <= |bs|
    ensures r.result.Ok?
    ensures r.result.value <==> exists j :: i <= j < |bs| && Deletes(bs, j, path, replies)
    ensures r.tried == Eligibles(bs, i, |bs|, path, OpDelete, Directory)
    decreases |bs| - i
  {
    if i == |bs| then Delegated(Ok(false), [])
    else
      var rest := DeleteScan(bs, i + 1, path, replies);
      if !Eligible(bs[i], path, OpDelete, Directory) then
        assert !Deletes(bs, i, path, replies);
        rest
      else
        var here := replies(i) == Returned(true);
        assert here <==> Deletes(bs, i, path, replies);
        Delegated(Ok(here || rest.result.value), [i] + rest.tried)
  }

  /** `deleteChild`: refuses when the filesystem's mask lacks deletion, then
      refuses an entry that is not a directory; otherwise it calls every
      deletion-capable backend holding this directory and reports whether
      any of them deleted the child. `replies` tells what each backend's
      `deleteChild(name)` does in this call. */
  function DeleteChild(fs: MergedFs, node: Node, replies: nat -> Reply<bool>): (r: Delegated<bool>)
    ensures r.result == InvalidOperation(NoCapableFilesystem) <==> !Supports(fs.supported, OpDelete)
    ensures r.result == InvalidOperation(NotADirectory) <==> Supports(fs.supported, OpDelete) && node.GetType() != Directory
    ensures r.result.InvalidOperation? ==> r.tried == []
    ensures r.result != FileSystemFailure
    ensures r.result.Ok? ==> r.tried == Eligibles(fs.backends, 0, |fs.backends|, node.Path(), OpDelete, Directory)
    ensures r.result.Ok? ==>
      (r.result.value <==> exists j :: 0 <= j < |fs.backends| && Deletes(fs.backends, j, node.Path(), replies))
  {
    if !Supports(fs.supported, OpDelete) then Delegated(InvalidOperation(NoCapableFilesystem), [])
    else if node.GetType() != Directory then Delegated(InvalidOperation(NotADirectory), [])
    else DeleteScan(fs.backends, 0, node.Path(), replies)
  }

  // ---------------------------------------------------------------- createEntry

  /** Backend `j` created the entry: it is eligible and its `createEntry`
      returned a non-null entry. */
  predicate Creates(bs: seq<Backend>, j: nat, path: string, replies: nat -> Reply<Option<BEntry>>)
    requires j < |bs|
  {
    Eligible(bs[j], path, OpCreate, Directory) && replies(j).Returned? && replies(j).result.Some?
  }

  /** Reference: the first backend from position `i` on that creates the entry. */
  function FirstCreator(bs: seq<Backend>, i: nat, path: string, replies: nat -> Reply<Option<BEntry>>): (r: Option<nat>)
    requires i <= |bs|
    ensures r.Some? ==> i <= r.value < |bs| && Creates(bs, r.value, path, replies)
    ensures forall k :: i <= k < |bs| && (r.None? || k < r.value) ==> !Creates(bs, k, path, replies)
    decreases |bs| - i
  {
    if i == |bs| then None
    else if Creates(bs, i, path, replies) then Some(i)
    else FirstCreator(bs, i + 1, path, replies)
  }

  /** The loop of `createEntry` from backend `i` on: the first backend that
      creates the entry wins; running out of backends is a null result. */
  function CreateScan(bs: seq<Backend>, i: nat, path: string, replies: nat -> Reply<Option<BEntry>>): (r: Delegated<Option<BEntry>>)
    requires i <= |bs|
    ensures match FirstCreator(bs, i, path, replies)
      case Some(j) => r == Delegated(Ok(replies(j).result), Eligibles(bs, i, j + 1, path, OpCreate, Directory))
      case None => r == Delegated(Ok(None), Eligibles(bs, i, |bs|, path, OpCreate, Directory))
    decreases |bs| - i
  {
    if i == |bs| then Delegated(Ok(None), [])
    else if !Eligible(bs[i], path, OpCreate, Directory) then CreateScan(bs, i + 1, path, replies)
    else match replies(i)
      case Returned(Some(e)) => Delegated(Ok(Some(e)), [i])
      case _ =>
        var rest := CreateScan(bs, i + 1, path, replies);
        Delegated(rest.result, [i] + rest.tried)
  }

  /** What `createEntry` leaves behind: the heap (the new merged entry is
      allocated in it) and the outcome. */
  datatype Created = Created(heap: Heap, result: Outcome<Option<NodeId>>, tried: seq<nat>)

  /** `createEntry`: refuses when the filesystem's mask lacks creation, then
      refuses an entry that is not a directory; otherwise the first
      creation-capable backend holding this directory that creates the entry
      wins, and its new entry is wrapped in a fresh merged entry. No success
      is a null result. Existing merged entries, their dirty flags and caches
      included, are left as they were. `replies` tells what each backend's
      `createEntry(type, name)` does in this call. */
  function CreateEntry(fs: MergedFs, h: Heap, id: NodeId, replies: nat -> Reply<Option<BEntry>>): (r: Created)
    requires id < |h|
    ensures |r.heap| >= |h| && r.heap[..|h|] == h
    ensures
      if !Supports(fs.supported, OpCreate) then r == Created(h, InvalidOperation(NoCapableFilesystem), [])
      else if h[id].GetType() != Directory then r == Created(h, InvalidOperation(NotADirectory), [])
      else match FirstCreator(fs.backends, 0, h[id].Path(), replies)
        case Some(j) => r == Created(h + [NewEntry(replies(j).result)], Ok(Some(|h|)),
                                     Eligibles(fs.backends, 0, j + 1, h[id].Path(), OpCreate, Directory))
        case None => r == Created(h, Ok(None), Eligibles(fs.backends, 0, |fs.backends|, h[id].Path(), OpCreate, Directory))
  {
    if !Supports(fs.supported, OpCreate) then Created(h, InvalidOperation(NoCapableFilesystem), [])
    else if h[id].GetType() != Directory then Created(h, InvalidOperation(NotADirectory), [])
    else
      var scan := CreateScan(fs.backends, 0, h[id].Path(), replies);
      match scan.result.value
      case None => Created(h, Ok(None), scan.tried)
      case Some(e) => Created(h + [NewEntry(Some(e))], Ok(Some(|h|)), scan.tried)
  }

  /** On a union where the filesystem's mask is the OR of its backends' masks
      and no backend can create, `createEntry` is refused up front and no
      backend is called. */
  lemma ReadOnlyUnionRefusesCreate(fs: MergedFs, h: Heap, id: NodeId, replies: nat -> Reply<Option<BEntry>>)
    requires id < |h|
    requires fs.supported == AggregateMask(fs.backends)
    requires forall i :: 0 <= i < |fs.backends| ==> !Supports(fs.backends[i].ops, OpCreate)
    ensures CreateEntry(fs, h, id, replies) == Created(h, InvalidOperation(NoCapableFilesystem), [])
  {
    AggregateSupports(fs.backends, OpCreate);
  }
}

=== FILE: merged_tree.dfy ===
/** The merged entries themselves. Entries refer to each other by shared
    pointers in the source; here they live in an arena `Heap` and refer to
    each other by index, so that the ordered child list and the name map of a
    node point at the very same child nodes. */
module MergedTree {
  import opened Common
  import opened Backends

  type NodeId = nat

  /** One `MergedEntry`: the backend entry it wraps (none for the root), the
      dirty flag, the ordered child list and the name-to-child map. */
  datatype Node = Node(contained: Option<BEntry>, dirty: bool, entries: seq<NodeId>, mapping: map<string, NodeId>) {

    /** The entry's path: the wrapped entry's path, or empty for the root. */
    function Path(): (p: string) {
      if contained.Some? then contained.value.path else ""
    }

    predicate IsRoot() {
      Path() == ""
    }

    /** The root is a directory whatever the backends say; any other entry
        reports the type of the backend entry it wraps. */
    function GetType(): (t: EntryType)
      ensures IsRoot() ==> t == Directory
      ensures !IsRoot() ==> contained.Some? && t == contained.value.kind
    {
      if IsRoot() then Directory else contained.value.kind
    }
  }

  type Heap = seq<Node>

  /** The constructor: a new entry starts dirty with an empty cache. */
  function NewEntry(contained: Option<BEntry>): (n: Node)
    ensures n.contained == contained && n.dirty && n.entries == [] && n.mapping == map[]
    ensures n.Path() == (if contained.Some? then contained.value.path else "")
  {
    Node(contained, true, [], map[])
  }

  /** The heap holding only the root entry of a merged filesystem. */
  function RootHeap(): (h: Heap) {
    [NewEntry(None)]
  }

  /** Every child reference of node `i` points to a later node of the heap. */
  ghost predicate ChildrenAfter(h: Heap, i: nat)
    requires i < |h|
  {
    && (forall j :: 0 <= j < |h[i].entries| ==> i < h[i].entries[j] < |h|)
    && (forall k :: k in h[i].mapping ==> i < h[i].mapping[k] < |h|)
  }

  /** The cache shape of node `i`: the ordered list and the map hold the same
      child nodes, each under the path that child reports, and no path is
      listed twice. */
  ghost predicate CacheShape(h: Heap, i: nat)
    requires i < |h| && ChildrenAfter(h, i)
  {
    && (forall j :: 0 <= j < |h[i].entries| ==>
          h[h[i].entries[j]].Path() in h[i].mapping && h[i].mapping[h[h[i].entries[j]].Path()] == h[i].entries[j])
    && (forall k :: k in h[i].mapping ==> h[i].mapping[k] in h[i].entries && h[h[i].mapping[k]].Path() == k)
    && (forall j1, j2 :: 0 <= j1 < j2 < |h[i].entries| ==> h[h[i].entries[j1]].Path() != h[h[i].entries[j2]].Path())
  }

  ghost predicate Valid(h: Heap) {
    forall i :: 0 <= i < |h| ==> ChildrenAfter(h, i) && CacheShape(h, i)
  }

  /** A freshly created merged filesystem is well formed, and its root is a
      directory with nothing cached yet. */
  lemma RootHeapValid()
    ensures Valid(RootHeap())
    ensures RootHeap()[0].GetType() == Directory && RootHeap()[0].dirty
  {
  }

  /** Allocating a fresh entry (as `createEntry` does) keeps the heap well
      formed and changes no existing entry. */
  lemma AppendValid(h: Heap, contained: Option<BEntry>)
    requires Valid(h)
    ensures Valid(h + [NewEntry(contained)])
  {
    var h' := h + [NewEntry(contained)];
    forall i | 0 <= i < |h'| ensures ChildrenAfter(h', i) && CacheShape(h', i) {
      if i < |h| {
        assert h'[i] == h[i];
        assert ChildrenAfter(h, i) && CacheShape(h, i);
        assert forall c :: 0 <= c < |h| ==> h'[c] == h[c];
      }
    }
  }
}

=== FILE: resolution.dfy ===
/** Looking up and enumerating children of a merged entry: `getEntryInternal`,
    `getChild`, `numChildren` and `listChildren`. */
module Resolution {
  import opened Common
  import opened Backends
  import opened MergedTree
  import opened Shadowing
  import opened Caching

  const Separator: char := '/'

  /** What an operation on a merged entry leaves behind: the heap (a rebuilt
      cache allocates entries) and what the caller observes. */
  datatype Step<+T> = Step(heap: Heap, result: Outcome<T>)

  /** `find_first_of(DirectorySeparatorChar)`: the first separator, if any. */
  function FirstSeparator(s: string): (r: Option<nat>)
    ensures r.None? ==> Separator !in s
    ensures r.Some? ==> r.value < |s| && s[r.value] == Separator && Separator !in s[..r.value]
  {
    if s == [] then None
    else if s[0] == Separator then Some(0)
    else match FirstSeparator(s[1..])
      case None => None
      case Some(i) =>
        assert s[..i + 1] == [s[0]] + s[1..][..i];
        Some(i + 1)
  }

  /** `getEntryInternal`: a path without separator is looked up in this
      entry's map; otherwise the part before the first separator is looked
      up and the rest is resolved in that child's map. Nothing is rebuilt on
      the way, and a miss at any level is a null result. */
  function GetEntryInternal(h: Heap, id: NodeId, path: string): (r: Option<NodeId>)
    requires Valid(h) && id < |h|
    ensures r.Some? ==> id < r.value < |h|
    ensures Separator !in path ==> (r.Some? <==> path in h[id].mapping)
    ensures r.Some? ==> (if Separator in path then path[..FirstSeparator(path).value] else path) in h[id].mapping
    decreases |path|
  {
    var m := h[id].mapping;
    assert ChildrenAfter(h, id);
    match FirstSeparator(path)
    case None => if path in m then Some(m[path]) else None
    case Some(i) =>
      var head := path[..i];
      if head in m then GetEntryInternal(h, m[head], path[i + 1..]) else None
  }

  /** The segments of a `/`-separated path, built one character at a time. */
  function Split(s: string): (segs: seq<string>)
    ensures |segs| >= 1
    ensures forall i :: 0 <= i < |segs| ==> Separator !in segs[i]
  {
    if s == [] then [[]]
    else
      var rest := Split(s[1..]);
      if s[0] == Separator then [[]] + rest
      else [[s[0]] + rest[0]] + rest[1..]
  }

  function Join(segs: seq<string>): (path: string)
    requires |segs| >= 1
  {
    if |segs| == 1 then segs[0] else segs[0] + [Separator] + Join(segs[1..])
  }

  /** Splitting at the first separator agrees with splitting at all of them. */
  lemma {:induction false} SplitAtFirstSeparator(s: string)
    ensures FirstSeparator(s).None? ==> Split(s) == [s]
    ensures FirstSeparator(s).Some? ==>
      var i := FirstSeparator(s).value; Split(s) == [s[..i]] + Split(s[i + 1..])
  {
    if s != [] && s[0] != Separator {
      SplitAtFirstSeparator(s[1..]);
      match FirstSeparator(s[1..])
      case None =>
        assert [s[0]] + s[1..] == s;
      case Some(i) =>
        assert [s[0]] + s[1..][..i] == s[..i + 1];
        assert s[1..][i + 1..] == s[i + 2..];
    }
  }

  /** Joining the segments of a path gives the path back. */
  lemma {:induction false} JoinSplit(s: string)
    ensures Join(Split(s)) == s
    decreases |s|
  {
    SplitAtFirstSeparator(s);
    match FirstSeparator(s)
    case None =>
    case Some(i) =>
      JoinSplit(s[i + 1..]);
      assert s == s[..i] + [Separator] + s[i + 1..];
  }

  /** Splitting a join of separator-free segments gives the segments back. */
  lemma {:induction false} SplitJoin(segs: seq<string>)
    requires |segs| >= 1
    requires forall i :: 0 <= i < |segs| ==> Separator !in segs[i]
    ensures Split(Join(segs)) == segs
    decreases |segs|
  {
    if |segs| > 1 {
      var s := Join(segs);
      var t := segs[0] + [Separator] + Join(segs[1..]);
      SplitJoin(segs[1..]);
      assert s == t;
      FirstSeparatorAfter(segs[0], Join(segs[1..]));
      SplitAtFirstSeparator(t);
      assert t[..|segs[0]|] == segs[0];
      assert t[|segs[0]| + 1..] == Join(segs[1..]);
      assert segs == [segs[0]] + segs[1..];
    } else {
      SplitAtFirstSeparator(segs[0]);
    }
  }

  lemma {:induction false} FirstSeparatorAfter(a: string, b: string)
    requires Separator !in a
    ensures FirstSeparator(a + [Separator] + b) == Some(|a|)
  {
    if a != [] {
      assert a[0] in a;
      FirstSeparatorAfter(a[1..], b);
      assert (a + [Separator] + b)[1..] == a[1..] + [Separator] + b;
    }
  }

  /** Reference resolution: walk the segments one map at a time. */
  function Walk(h: Heap, id: NodeId, segs: seq<string>): (r: Option<NodeId>)
    requires Valid(h) && id < |h| && |segs| >= 1
    decreases |segs|
  {
    var m := h[id].mapping;
    assert ChildrenAfter(h, id);
    if segs[0] !in m then None
    else if |segs| == 1 then Some(m[segs[0]])
    else Walk(h, m[segs[0]], segs[1..])
  }

  /** `getEntryInternal` resolves a path exactly as walking its segments does. */
  lemma {:induction false} ResolveWalks(h: Heap, id: NodeId, path: string)
    requires Valid(h) && id < |h|
    ensures GetEntryInternal(h, id, path) == Walk(h, id, Split(path))
    decreases |path|
  {
    SplitAtFirstSeparator(path);
    assert ChildrenAfter(h, id);
    match FirstSeparator(path)
    case None =>
    case Some(i) =>
      var m := h[id].mapping;
      WalkCons(h, id, path[..i], Split(path[i + 1..]));
      if path[..i] in m {
        ResolveWalks(h, m[path[..i]], path[i + 1..]);
      }
  }

  /** Walking a leading segment followed by at least one more. */
  lemma WalkCons(h: Heap, id: NodeId, seg: string, segs: seq<string>)
    requires Valid(h) && id < |h| && |segs| >= 1
    ensures seg !in h[id].mapping ==> Walk(h, id, [seg] + segs) == None
    ensures seg in h[id].mapping ==> h[id].mapping[seg] < |h| && Walk(h, id, [seg] + segs) == Walk(h, h[id].mapping[seg], segs)
  {
    assert ChildrenAfter(h, id);
    assert ([seg] + segs)[1..] == segs;
  }

  /** Rebuild the cache of entry `id` if and only if it is dirty. */
  function Refresh(h: Heap, id: NodeId, fs: MergedFs): (h': Heap)
    requires Valid(h) && id < |h|
    ensures Valid(h') && id < |h'| && |h| <= |h'| && !h'[id].dirty
    ensures h'[id].contained == h[id].contained
    ensures forall i :: 0 <= i < |h| && i != id ==> h'[i] == h[i]
    ensures !h[id].dirty ==> h' == h
    ensures h[id].dirty ==> h' == CacheChildren(h, id, fs)
    ensures CachesCurrent(h, fs) ==> CachesCurrent(h', fs)
  {
    if h[id].dirty then CacheChildrenValid(h, id, fs); CacheChildrenCurrent(h, id, fs); CacheChildren(h, id, fs) else h
  }

  /** `getChild`: refuses entries that are not directories, rebuilds the
      cache only when dirty, then resolves the normalized path segment by
      segment. Absence is a null result, never an exception. */
  function GetChild(h: Heap, id: NodeId, fs: MergedFs, normalize: string -> string, path: string): (r: Step<Option<NodeId>>)
    requires Valid(h) && id < |h|
    ensures r.result != FileSystemFailure
    ensures r.result.InvalidOperation? <==> h[id].GetType() != Directory
    ensures r.result.InvalidOperation? ==> r.result.reason == NotADirectory && r.heap == h
    ensures r.result.Ok? ==> Valid(r.heap) && id < |r.heap| && !r.heap[id].dirty
    ensures r.result.Ok? && !h[id].dirty ==> r.heap == h
    ensures r.result.Ok? && h[id].dirty ==> r.heap == CacheChildren(h, id, fs)
    ensures r.result.Ok? ==> r.result.value == Walk(r.heap, id, Split(normalize(path)))
  {
    if h[id].GetType() != Directory then Step(h, InvalidOperation(NotADirectory))
    else
      var h' := Refresh(h, id, fs);
      ResolveWalks(h', id, normalize(path));
      Step(h', Ok(GetEntryInternal(h', id, normalize(path))))
  }

  /** `numChildren`: the size of the cached list, rebuilt first when dirty. */
  function NumChildren(h: Heap, id: NodeId, fs: MergedFs): (r: Step<nat>)
    requires Valid(h) && id < |h|
    ensures r.result != FileSystemFailure
    ensures r.result.InvalidOperation? <==> h[id].GetType() != Directory
    ensures r.result.InvalidOperation? ==> r.result.reason == NotADirectory && r.heap == h
    ensures r.result.Ok? ==> Valid(r.heap) && id < |r.heap| && !r.heap[id].dirty
    ensures r.result.Ok? && h[id].dirty ==> r.result.value == |MergedChildren(fs.backends, h[id].Path())|
    ensures r.result.Ok? && !h[id].dirty ==> r.heap == h && r.result.value == |h[id].entries|
    ensures r.result.Ok? ==> r.heap == Refresh(h, id, fs) && r.result.value == |r.heap[id].entries|
  {
    if h[id].GetType() != Directory then Step(h, InvalidOperation(NotADirectory))
    else
      var h' := Refresh(h, id, fs);
      Step(h', Ok(|h'[id].entries|))
  }

  /** `listChildren`: the new contents of the output vector, which is the
      cached list (rebuilt first when dirty); the previous contents are
      discarded. After a rebuild the list wraps exactly the merged children,
      in order. */
  function ListChildren(h: Heap, id: NodeId, fs: MergedFs): (r: Step<seq<NodeId>>)
    requires Valid(h) && id < |h|
    ensures r.result != FileSystemFailure
    ensures r.result.InvalidOperation? <==> h[id].GetType() != Directory
    ensures r.result.InvalidOperation? ==> r.result.reason == NotADirectory && r.heap == h
    ensures r.result.Ok? ==> Valid(r.heap) && id < |r.heap| && !r.heap[id].dirty
    ensures r.result.Ok? ==> forall j :: 0 <= j < |r.result.value| ==> r.result.value[j] < |r.heap|
    ensures r.result.Ok? && h[id].dirty ==>
      var d := MergedChildren(fs.backends, h[id].Path());
      |r.result.value| == |d| && forall j :: 0 <= j < |d| ==> r.heap[r.result.value[j]].contained == Some(d[j])
    ensures r.result.Ok? && !h[id].dirty ==> r.heap == h && r.result.value == h[id].entries
    ensures r.result.Ok? ==> r.heap == Refresh(h, id, fs) && r.result.value == r.heap[id].entries
  {
    if h[id].GetType() != Directory then Step(h, InvalidOperation(NotADirectory))
    else
      var h' := Refresh(h, id, fs);
      assert ChildrenAfter(h', id);
      Step(h', Ok(h'[id].entries))
  }

  /** `numChildren()` always equals the length of what `listChildren`
      produces from the same state, and both leave the same heap. */
  lemma CountMatchesListing(h: Heap, id: NodeId, fs: MergedFs)
    requires Valid(h) && id < |h|
    ensures NumChildren(h, id, fs).heap == ListChildren(h, id, fs).heap
    ensures NumChildren(h, id, fs).result.Ok? <==> ListChildren(h, id, fs).result.Ok?
    ensures NumChildren(h, id, fs).result.Ok? ==>
      NumChildren(h, id, fs).result.value == |ListChildren(h, id, fs).result.value|
  {
  }

  /** Listing twice without anything in between gives the same list and does
      not rebuild again. */
  lemma ListingIsIdempotent(h: Heap, id: NodeId, fs: MergedFs)
    requires Valid(h) && id < |h|
    ensures var first := ListChildren(h, id, fs);
      first.result.Ok? ==> ListChildren(first.heap, id, fs) == first
  {
  }

  /** The root of a new merged filesystem is a directory whatever the
      backends report, so enumerating it never fails; it lists the union of
      the readable backends' root listings. */
  lemma RootEnumerates(fs: MergedFs)
    ensures RootHeap()[0].GetType() == Directory
    ensures Valid(RootHeap())
    ensures NumChildren(RootHeap(), 0, fs).result == Ok(|MergedChildren(fs.backends, "")|)
  {
    RootHeapValid();
  }

  /** A child found while rebuilding reports the type of the first backend
      entry discovered under its path (unless that path is empty, in which
      case it counts as a root and is a directory). */
  lemma ChildTypeIsFirstDiscovered(h: Heap, id: NodeId, fs: MergedFs, j: nat)
    requires Valid(h) && id < |h|
    requires j < |MergedChildren(fs.backends, h[id].Path())|
    ensures var h' := CacheChildren(h, id, fs); var d := MergedChildren(fs.backends, h[id].Path());
      h'[h'[id].entries[j]].GetType() == (if d[j].path == "" then Directory else d[j].kind)
  {
    RebuiltChildType(h, CacheChildren(h, id, fs), id, MergedChildren(fs.backends, h[id].Path()), j);
  }

  lemma RebuiltChildType(h: Heap, h': Heap, id: NodeId, d: seq<BEntry>, j: nat)
    requires id < |h| && RebuiltAs(h, h', id, d) && j < |d|
    ensures h'[id].entries[j] < |h'|
    ensures h'[h'[id].entries[j]].GetType() == (if d[j].path == "" then Directory else d[j].kind)
  {
    assert h'[id].entries[j] == |h| + j && h'[|h| + j] == NewEntry(Some(d[j]));
  }

  /** After a rebuild, a path is in the entry's map exactly when some readable
      backend reports it for this directory, and it maps to a fresh entry
      wrapping the first such report. */
  lemma RebuiltLookup(h: Heap, h': Heap, id: NodeId, s: seq<BEntry>, k: string)
    requires id < |h| && RebuiltAs(h, h', id, FirstSeen(s))
    ensures k in h'[id].mapping <==> k in Keys(s)
    ensures k in h'[id].mapping ==> h'[id].mapping[k] < |h'| && h'[h'[id].mapping[k]] == NewEntry(Some(s[FirstIndexOf(s, k)]))
  {
    FirstSeenKeys(s);
    if k in Keys(s) {
      var j := RebuiltEntryAt(h, h', id, FirstSeen(s), k);
      FirstSeenAt(s, j);
    }
  }

  /** After a rebuild from `d`, a mapped name leads to the fresh entry of its
      position in `d`. */
  lemma RebuiltEntryAt(h: Heap, h': Heap, id: NodeId, d: seq<BEntry>, k: string) returns (j: nat)
    requires id < |h| && RebuiltAs(h, h', id, d) && k in Keys(d)
    ensures j < |d| && d[j].path == k && k in h'[id].mapping
    ensures h'[id].mapping[k] == |h| + j < |h'| && h'[|h| + j] == NewEntry(Some(d[j]))
  {
    j := KeyPosition(d, k);
  }

  /** The cache of entry `i` agrees with the backends: its map holds exactly
      the paths they report under the entry's path, and each one leads to an
      entry wrapping the first report of that path. */
  ghost predicate CacheCurrent(h: Heap, i: nat, fs: MergedFs)
    requires i < |h|
  {
    var s := Flatten(fs.backends, h[i].Path());
    && h[i].mapping.Keys == Keys(s)
    && forall k :: k in h[i].mapping ==>
         h[i].mapping[k] < |h| && h[h[i].mapping[k]].contained == Some(s[FirstIndexOf(s, k)])
  }

  /** Every clean cache agrees with the backends; dirty entries are
      unconstrained, since they are rebuilt before use. */
  ghost predicate CachesCurrent(h: Heap, fs: MergedFs) {
    forall i :: 0 <= i < |h| && !h[i].dirty ==> CacheCurrent(h, i, fs)
  }

  /** Rebuilding an entry keeps every clean cache current. */
  lemma CacheChildrenCurrent(h: Heap, id: NodeId, fs: MergedFs)
    requires Valid(h) && id < |h|
    ensures CachesCurrent(h, fs) ==> CachesCurrent(CacheChildren(h, id, fs), fs)
  {
    if CachesCurrent(h, fs) {
      RebuiltCurrent(h, CacheChildren(h, id, fs), id, fs);
    }
  }

  lemma RebuiltCurrent(h: Heap, h': Heap, id: NodeId, fs: MergedFs)
    requires id < |h| && CachesCurrent(h, fs)
    requires RebuiltAs(h, h', id, MergedChildren(fs.backends, h[id].Path()))
    ensures CachesCurrent(h', fs)
  {
    var d := MergedChildren(fs.backends, h[id].Path());
    forall i | |h| <= i < |h'| ensures h'[i].dirty {
      assert h'[|h| + (i - |h|)] == NewEntry(Some(d[i - |h|]));
    }
    forall c | 0 <= c < |h| ensures h'[c].contained == h[c].contained {
    }
    RebuiltCacheCurrent(h, h', id, fs);
    forall i | 0 <= i < |h'| && !h'[i].dirty ensures CacheCurrent(h', i, fs) {
      if i != id {
        CurrentCarries(h, h', i, fs);
      }
    }
  }

  /** The rebuilt cache itself agrees with the backends. */
  lemma RebuiltCacheCurrent(h: Heap, h': Heap, id: NodeId, fs: MergedFs)
    requires id < |h| && RebuiltAs(h, h', id, MergedChildren(fs.backends, h[id].Path()))
    ensures CacheCurrent(h', id, fs)
  {
    var s := Flatten(fs.backends, h[id].Path());
    assert h'[id].Path() == h[id].Path();
    forall k ensures k in h'[id].mapping <==> k in Keys(s) {
      RebuiltLookup(h, h', id, s, k);
    }
    forall k | k in h'[id].mapping
      ensures h'[id].mapping[k] < |h'| && h'[h'[id].mapping[k]].contained == Some(s[FirstIndexOf(s, k)])
    {
      RebuiltLookup(h, h', id, s, k);
    }
  }

  /** A cache that agreed with the backends still does when the entries it
      leads to keep what they wrap. */
  lemma CurrentCarries(h: Heap, h': Heap, i: nat, fs: MergedFs)
    requires i < |h| <= |h'| && h'[i] == h[i] && CacheCurrent(h, i, fs)
    requires forall c :: 0 <= c < |h| ==> h'[c].contained == h[c].contained
    ensures CacheCurrent(h', i, fs)
  {
  }

  /** Looking up a single name in a dirty directory finds an entry exactly
      when some readable backend reports that name for this directory, and
      the entry found wraps the first such report. */
  lemma LookupAfterRebuild(h: Heap, id: NodeId, fs: MergedFs, normalize: string -> string, path: string)
    requires Valid(h) && id < |h| && h[id].dirty && h[id].GetType() == Directory
    requires Separator !in normalize(path)
    ensures var r := GetChild(h, id, fs, normalize, path); var s := Flatten(fs.backends, h[id].Path());
      && r.result.Ok?
      && (r.result.value.Some? <==> normalize(path) in Keys(s))
      && (r.result.value.Some? ==> r.heap[r.result.value.value].contained == Some(s[FirstIndexOf(s, normalize(path))]))
  {
    SplitAtFirstSeparator(normalize(path));
    RebuiltLookup(h, CacheChildren(h, id, fs), id, Flatten(fs.backends, h[id].Path()), normalize(path));
  }
}

=== FILE: shadowing.dfy ===
/** The reference meaning of a merged directory listing: the concatenation of
    the backends' listings with every entry dropped whose path already
    appeared earlier ("first seen wins", or shadowing by priority). */
module Shadowing {
  import opened Backends

  /** The paths reported by a sequence of backend entries. */
  function Keys(s: seq<BEntry>): (ks: set<string>) {
    set e | e in s :: e.path
  }

  /** Keep each entry whose path does not occur earlier in `s`, in order. */
  function FirstSeen(s: seq<BEntry>): (d: seq<BEntry>)
    decreases |s|
  {
    if s == [] then []
    else
      var p, c := s[..|s| - 1], s[|s| - 1];
      FirstSeen(p) + (if c.path in Keys(p) then [] else [c])
  }

  /** The position of the first entry of `s` reporting path `k`. */
  function FirstIndexOf(s: seq<BEntry>, k: string): (i: nat)
    requires k in Keys(s)
    ensures i < |s| && s[i].path == k
    ensures k !in Keys(s[..i])
  {
    KeysCons(s);
    if s[0].path == k then 0
    else
      var i' := FirstIndexOf(s[1..], k);
      assert s[..i' + 1] == [s[0]] + s[1..][..i'];
      KeysCons(s[..i' + 1]);
      i' + 1
  }

  lemma KeysCons(s: seq<BEntry>)
    requires s != []
    ensures Keys(s) == {s[0].path} + Keys(s[1..])
  {
    assert forall e :: e in s <==> e == s[0] || e in s[1..];
  }

  lemma KeysAppend(p: seq<BEntry>, q: seq<BEntry>)
    ensures Keys(p + q) == Keys(p) + Keys(q)
  {
    assert forall e :: e in p + q <==> e in p || e in q;
  }

  /** The first occurrence is the only position with that path and no
      earlier one. */
  lemma FirstIndexUnique(s: seq<BEntry>, k: string, i: nat)
    requires i < |s| && s[i].path == k && k !in Keys(s[..i])
    ensures k in Keys(s) && FirstIndexOf(s, k) == i
  {
    assert s[i] in s;
    var f := FirstIndexOf(s, k);
  }

  /** Appending never moves the first occurrence of a path already present. */
  lemma FirstIndexOfPrefix(p: seq<BEntry>, q: seq<BEntry>, k: string)
    requires k in Keys(p)
    ensures k in Keys(p + q) && FirstIndexOf(p + q, k) == FirstIndexOf(p, k)
  {
    var i := FirstIndexOf(p, k);
    assert (p + q)[..i] == p[..i];
    FirstIndexUnique(p + q, k, i);
  }

  /** A path first reported by the suffix is found at its place in the suffix. */
  lemma FirstIndexOfSuffix(p: seq<BEntry>, q: seq<BEntry>, k: string)
    requires k !in Keys(p) && k in Keys(q)
    ensures k in Keys(p + q) && FirstIndexOf(p + q, k) == |p| + FirstIndexOf(q, k)
  {
    var i := FirstIndexOf(q, k);
    assert (p + q)[..|p| + i] == p + q[..i];
    KeysAppend(p, q[..i]);
    FirstIndexUnique(p + q, k, |p| + i);
  }

  /** Shadowing loses no path: every reported path is listed. */
  lemma {:induction false} FirstSeenKeys(s: seq<BEntry>)
    ensures Keys(FirstSeen(s)) == Keys(s)
    decreases |s|
  {
    if s != [] {
      var p, c := s[..|s| - 1], s[|s| - 1];
      assert s == p + [c];
      FirstSeenKeys(p);
      KeysAppend(p, [c]);
      KeysAppend(FirstSeen(p), if c.path in Keys(p) then [] else [c]);
    }
  }

  /** Shadowing lists no path twice. */
  lemma {:induction false} FirstSeenDistinct(s: seq<BEntry>)
    ensures forall j1, j2 :: 0 <= j1 < j2 < |FirstSeen(s)| ==> FirstSeen(s)[j1].path != FirstSeen(s)[j2].path
    decreases |s|
  {
    if s != [] {
      var p, c := s[..|s| - 1], s[|s| - 1];
      FirstSeenDistinct(p);
      FirstSeenKeys(p);
      var d := FirstSeen(p);
      forall j | 0 <= j < |d| ensures d[j].path in Keys(p) {
        assert d[j] in d;
      }
    }
  }

  /** The entry listed for each path is the first one reported under that
      path: a later entry never replaces an earlier one. */
  lemma {:induction false} FirstSeenIsFirst(s: seq<BEntry>)
    ensures forall j :: 0 <= j < |FirstSeen(s)| ==>
      FirstSeen(s)[j].path in Keys(s) && FirstSeen(s)[j] == s[FirstIndexOf(s, FirstSeen(s)[j].path)]
    decreases |s|
  {
    if s != [] {
      var p, c := s[..|s| - 1], s[|s| - 1];
      assert s == p + [c];
      FirstSeenIsFirst(p);
      var d := FirstSeen(p);
      forall j | 0 <= j < |d|
        ensures d[j].path in Keys(s) && d[j] == s[FirstIndexOf(s, d[j].path)]
      {
        FirstIndexOfPrefix(p, [c], d[j].path);
      }
      if c.path !in Keys(p) {
        assert s[..|p|] == p;
        FirstIndexUnique(s, c.path, |p|);
      }
    }
  }

  /** `FirstSeenIsFirst` at one position. */
  lemma FirstSeenAt(s: seq<BEntry>, j: nat)
    requires j < |FirstSeen(s)|
    ensures FirstSeen(s)[j].path in Keys(s) && FirstSeen(s)[j] == s[FirstIndexOf(s, FirstSeen(s)[j].path)]
  {
    FirstSeenIsFirst(s);
  }

  /** The listing is in order of first appearance. */
  lemma {:induction false} FirstSeenOrdered(s: seq<BEntry>)
    ensures forall j :: 0 <= j < |FirstSeen(s)| ==> FirstSeen(s)[j].path in Keys(s)
    ensures forall j1, j2 :: 0 <= j1 < j2 < |FirstSeen(s)| ==>
      FirstIndexOf(s, FirstSeen(s)[j1].path) < FirstIndexOf(s, FirstSeen(s)[j2].path)
    decreases |s|
  {
    FirstSeenIsFirst(s);
    if s != [] {
      var p, c := s[..|s| - 1], s[|s| - 1];
      assert s == p + [c];
      FirstSeenOrdered(p);
      var d := FirstSeen(p);
      forall j | 0 <= j < |d|
        ensures FirstIndexOf(s, d[j].path) == FirstIndexOf(p, d[j].path)
      {
        FirstIndexOfPrefix(p, [c], d[j].path);
      }
      if c.path !in Keys(p) {
        assert s[..|p|] == p;
        FirstIndexUnique(s, c.path, |p|);
      }
    }
  }

  /** In `p + c + r`, a path absent from `p` is first reported inside `c`
      when `c` reports it at all. */
  lemma FirstIndexOfMiddle(p: seq<BEntry>, c: seq<BEntry>, r: seq<BEntry>, k: string)
    requires k !in Keys(p) && k in Keys(c)
    ensures k in Keys(p + c + r)
    ensures (p + c + r)[FirstIndexOf(p + c + r, k)] == c[FirstIndexOf(c, k)]
  {
    KeysAppend(c, r);
    FirstIndexOfPrefix(c, r, k);
    FirstIndexOfSuffix(p, c + r, k);
    assert p + c + r == p + (c + r);
  }
}

=== FILE: stale_lookup.dfy ===
/** Resolving a path of several segments. As written, `getEntryInternal`
    descends into a child without rebuilding that child's cache, and a child
    created by a rebuild starts dirty with an empty map, so the descent finds
    nothing. `ResolveFresh` is the evidently intended resolution, which
    rebuilds every dirty entry before consulting its map. */
module StaleLookup {
  import opened Common
  import opened Backends
  import opened MergedTree
  import opened Shadowing
  import opened Caching
  import opened Resolution

  /** As written: right after a dirty directory is rebuilt, every path with a
      separator resolves to null, whatever the backends hold. */
  lemma DeepPathMissesAfterRebuild(h: Heap, id: NodeId, fs: MergedFs, normalize: string -> string, path: string)
    requires Valid(h) && id < |h| && h[id].dirty && h[id].GetType() == Directory
    requires Separator in normalize(path)
    ensures GetChild(h, id, fs, normalize, path).result == Ok(None)
  {
    var h' := CacheChildren(h, id, fs);
    CacheChildrenValid(h, id, fs);
    assert GetChild(h, id, fs, normalize, path).result == Ok(GetEntryInternal(h', id, normalize(path)));
    DeepPathMisses(h, h', id, MergedChildren(fs.backends, h[id].Path()), normalize(path));
  }

  /** Through an entry whose cache was just rebuilt, no path with a separator
      resolves. */
  lemma DeepPathMisses(h: Heap, h': Heap, id: NodeId, d: seq<BEntry>, p: string)
    requires id < |h| && RebuiltAs(h, h', id, d) && Valid(h')
    requires Separator in p
    ensures GetEntryInternal(h', id, p) == None
  {
    var i := FirstSeparator(p).value;
    var m := h'[id].mapping;
    if p[..i] in m {
      var j := KeyPosition(d, p[..i]);
      EmptyMapMisses(h', m[p[..i]], p[i + 1..]);
    }
  }

  /** An entry whose map is empty resolves no path at all. */
  lemma EmptyMapMisses(h: Heap, id: NodeId, path: string)
    requires Valid(h) && id < |h| && h[id].mapping == map[]
    ensures GetEntryInternal(h, id, path) == None
  {
  }

  /** Every entry whose map the resolution of `path` from `id` consults is
      clean. */
  ghost predicate CleanAlong(h: Heap, id: NodeId, path: string)
    requires Valid(h) && id < |h|
    decreases |path|
  {
    && !h[id].dirty
    && match FirstSeparator(path)
       case None => true
       case Some(i) =>
         assert ChildrenAfter(h, id);
         path[..i] in h[id].mapping ==> CleanAlong(h, h[id].mapping[path[..i]], path[i + 1..])
  }

  /** Corrected resolution: like `getEntryInternal`, but each entry is
      rebuilt when dirty before its map is consulted. The result is what
      `getEntryInternal` finds in the heap it leaves, and every map consulted
      on the way is fresh. Entries before `id` are untouched. */
  function ResolveFresh(h: Heap, id: NodeId, fs: MergedFs, path: string): (r: (Heap, Option<NodeId>))
    requires Valid(h) && id < |h|
    ensures Valid(r.0) && |h| <= |r.0| && id < |r.0|
    ensures forall i :: 0 <= i < id ==> r.0[i] == h[i]
    ensures r.0[id].contained == h[id].contained
    ensures r.1 == GetEntryInternal(r.0, id, path)
    ensures CleanAlong(r.0, id, path)
    ensures CachesCurrent(h, fs) ==> CachesCurrent(r.0, fs)
    ensures CachesCurrent(h, fs) && Separator !in path ==>
      var s := Flatten(fs.backends, h[id].Path());
      && (r.1.Some? <==> path in Keys(s))
      && (r.1.Some? ==> r.1.value < |r.0| && r.0[r.1.value].contained == Some(s[FirstIndexOf(s, path)]))
    decreases |path|
  {
    var h1 := Refresh(h, id, fs);
    assert ChildrenAfter(h1, id);
    var m := h1[id].mapping;
    match FirstSeparator(path)
    case None => (h1, if path in m then Some(m[path]) else None)
    case Some(i) =>
      if path[..i] !in m then (h1, None)
      else
        var r := ResolveFresh(h1, m[path[..i]], fs, path[i + 1..]);
        DescendAgrees(h1, r.0, id, path, i, r.1);
        r
  }

  /** When resolving the rest of the path from the child leaves this
      (clean) entry as it was, the result and the freshness of the maps carry
      over to the whole path. */
  lemma DescendAgrees(h1: Heap, h2: Heap, id: NodeId, path: string, i: nat, res: Option<NodeId>)
    requires Valid(h1) && Valid(h2) && id < |h1| <= |h2| && !h1[id].dirty
    requires FirstSeparator(path) == Some(i) && path[..i] in h1[id].mapping
    requires ChildrenAfter(h1, id) && h2[id] == h1[id]
    requires res == GetEntryInternal(h2, h1[id].mapping[path[..i]], path[i + 1..])
    requires CleanAlong(h2, h1[id].mapping[path[..i]], path[i + 1..])
    ensures res == GetEntryInternal(h2, id, path) && CleanAlong(h2, id, path)
  {
  }

  /** `getChild` with the corrected resolution. */
  function GetChildFresh(h: Heap, id: NodeId, fs: MergedFs, normalize: string -> string, path: string): (r: Step<Option<NodeId>>)
    requires Valid(h) && id < |h|
    ensures r.result != FileSystemFailure
    ensures r.result.InvalidOperation? <==> h[id].GetType() != Directory
    ensures r.result.InvalidOperation? ==> r.result.reason == NotADirectory && r.heap == h
    ensures r.result.Ok? ==> Valid(r.heap) && id < |r.heap|
    ensures r.result.Ok? ==> r.result.value == GetEntryInternal(r.heap, id, normalize(path))
    ensures r.result.Ok? ==> CleanAlong(r.heap, id, normalize(path))
    ensures CachesCurrent(h, fs) ==> CachesCurrent(r.heap, fs)
    ensures r.result.Ok? && r.result.value.Some? && CachesCurrent(h, fs) && Separator !in normalize(path) ==>
      var s := Flatten(fs.backends, h[id].Path());
      && normalize(path) in Keys(s) && r.result.value.value < |r.heap|
      && r.heap[r.result.value.value].contained == Some(s[FirstIndexOf(s, normalize(path))])
  {
    if h[id].GetType() != Directory then Step(h, InvalidOperation(NotADirectory))
    else
      var r := ResolveFresh(h, id, fs, normalize(path));
      Step(r.0, Ok(r.1))
  }

  /** A single readable backend whose root holds a directory `dir`, which
      holds a file that reports its bare name `file` as its path. */
  function Nested(dir: string, file: string): (fs: MergedFs) {
    var d := BEntry(dir, Directory, [BEntry(file, File, [])]);
    MergedFs([Backend(OpRead, BEntry("", Directory, [d]), map[dir := d])], OpRead)
  }

  /** The union lists `dir` at the root and `file` inside it. */
  lemma NestedListings(dir: string, file: string)
    requires dir != ""
    ensures var d := BEntry(dir, Directory, [BEntry(file, File, [])]);
      && MergedChildren(Nested(dir, file).backends, "") == [d]
      && MergedChildren(Nested(dir, file).backends, dir) == [BEntry(file, File, [])]
  {
    var bs := Nested(dir, file).backends;
    var d := BEntry(dir, Directory, [BEntry(file, File, [])]);
    assert bs[1..] == [];
    assert Flatten(bs, "") == [d];
    assert Flatten(bs, dir) == [BEntry(file, File, [])];
    assert FirstSeen([d]) == FirstSeen([]) + [d];
    assert FirstSeen([BEntry(file, File, [])]) == FirstSeen([]) + [BEntry(file, File, [])];
  }

  /** Rebuilding the root caches one fresh entry for `dir`. */
  lemma NestedRootRebuilt(dir: string, file: string) returns (h1: Heap)
    requires dir != ""
    ensures h1 == Refresh(RootHeap(), 0, Nested(dir, file)) && Valid(h1) && |h1| == 2
    ensures h1[0].mapping == map[dir := 1]
    ensures h1[1] == NewEntry(Some(BEntry(dir, Directory, [BEntry(file, File, [])])))
  {
    RootHeapValid();
    NestedListings(dir, file);
    h1 := Refresh(RootHeap(), 0, Nested(dir, file));
    assert h1 == CacheChildren(RootHeap(), 0, Nested(dir, file));
    RebuiltSingle(RootHeap(), h1, 0, BEntry(dir, Directory, [BEntry(file, File, [])]));
  }

  /** Rebuilding `dir` then caches one fresh entry for `file`. */
  lemma NestedDirRebuilt(dir: string, file: string, h1: Heap) returns (h2: Heap)
    requires dir != ""
    requires Valid(h1) && |h1| == 2 && h1[1] == NewEntry(Some(BEntry(dir, Directory, [BEntry(file, File, [])])))
    ensures h2 == Refresh(h1, 1, Nested(dir, file)) && |h2| == 3
    ensures h2[1].mapping == map[file := 2] && h2[2] == NewEntry(Some(BEntry(file, File, [])))
  {
    NestedListings(dir, file);
    h2 := Refresh(h1, 1, Nested(dir, file));
    assert h2 == CacheChildren(h1, 1, Nested(dir, file));
    assert h1[1].Path() == dir;
    RebuiltSingle(h1, h2, 1, BEntry(file, File, []));
  }

  /** As written, `getChild(dir + "/" + file)` on the root of a fresh union
      of that backend returns null. */
  lemma NestedFileMissed(dir: string, file: string)
    requires dir != "" && Separator !in dir
    ensures GetChild(RootHeap(), 0, Nested(dir, file), s => s, dir + [Separator] + file).result == Ok(None)
  {
    RootHeapValid();
    FirstSeparatorAfter(dir, file);
    DeepPathMissesAfterRebuild(RootHeap(), 0, Nested(dir, file), s => s, dir + [Separator] + file);
  }

  /** Inside the rebuilt `dir`, the corrected resolution of `file` finds
      the fresh entry for it. */
  lemma NestedFileResolved(dir: string, file: string, h1: Heap, h2: Heap)
    requires dir != "" && Separator !in file
    requires Valid(h1) && |h1| == 2 && h1[1] == NewEntry(Some(BEntry(dir, Directory, [BEntry(file, File, [])])))
    requires h2 == Refresh(h1, 1, Nested(dir, file)) && |h2| == 3
    requires h2[1].mapping == map[file := 2] && h2[2] == NewEntry(Some(BEntry(file, File, [])))
    ensures ResolveFresh(h1, 1, Nested(dir, file), file) == (h2, Some(2))
  {
  }

  /** From the root, the corrected resolution of `dir/file` rebuilds the
      root and continues with `file` inside `dir`. */
  lemma NestedDescends(dir: string, file: string)
    requires dir != "" && Separator !in dir
    ensures ResolveFresh(RootHeap(), 0, Nested(dir, file), dir + [Separator] + file)
      == ResolveFresh(Refresh(RootHeap(), 0, Nested(dir, file)), 1, Nested(dir, file), file)
  {
    RootHeapValid();
    var h1 := NestedRootRebuilt(dir, file);
    SeparatedParts(dir, file);
    ResolveFreshDescends(RootHeap(), 0, Nested(dir, file), dir + [Separator] + file, |dir|);
  }

  /** `dir/file` splits at its first separator into `dir` and `file`. */
  lemma SeparatedParts(dir: string, file: string)
    requires Separator !in dir
    ensures var path := dir + [Separator] + file;
      FirstSeparator(path) == Some(|dir|) && path[..|dir|] == dir && path[|dir| + 1..] == file
  {
    FirstSeparatorAfter(dir, file);
    var path := dir + [Separator] + file;
    assert path[..|dir|] == dir && path[|dir| + 1..] == file;
  }

  /** Unfolding the corrected resolution at a separator whose first segment
      is mapped after the refresh. */
  lemma ResolveFreshDescends(h: Heap, id: NodeId, fs: MergedFs, path: string, i: nat)
    requires Valid(h) && id < |h| && FirstSeparator(path) == Some(i)
    ensures var h' := Refresh(h, id, fs);
      path[..i] in h'[id].mapping ==>
        h'[id].mapping[path[..i]] < |h'|
        && ResolveFresh(h, id, fs, path) == ResolveFresh(h', h'[id].mapping[path[..i]], fs, path[i + 1..])
  {
    var h' := Refresh(h, id, fs);
    assert ChildrenAfter(h', id);
    var m := h'[id].mapping;
    if path[..i] in m {
      assert ResolveFresh(h, id, fs, path) == ResolveFresh(h', m[path[..i]], fs, path[i + 1..]);
    }
  }

  /** The corrected resolution finds the file. */
  lemma NestedFileFound(dir: string, file: string)
    requires dir != "" && Separator !in dir && Separator !in file
    ensures var r := GetChildFresh(RootHeap(), 0, Nested(dir, file), s => s, dir + [Separator] + file);
      r.result.Ok? && r.result.value.Some? && r.heap[r.result.value.value].contained == Some(BEntry(file, File, []))
  {
    var fs := Nested(dir, file);
    var path := dir + [Separator] + file;
    RootHeapValid();
    var h1 := NestedRootRebuilt(dir, file);
    var h2 := NestedDirRebuilt(dir, file, h1);
    NestedFileResolved(dir, file, h1, h2);
    NestedDescends(dir, file);
  }

  /** The same tree as `Nested`, but every entry reports its full path, as
      the backend's `getChild` lookup by full path needs: the file reports
      `dir/file` and the lookup table holds both paths. */
  function NestedFull(dir: string, file: string): (fs: MergedFs) {
    var f := BEntry(dir + [Separator] + file, File, []);
    var d := BEntry(dir, Directory, [f]);
    MergedFs([Backend(OpRead, BEntry("", Directory, [d]), map[dir := d, dir + [Separator] + file := f])], OpRead)
  }

  /** With full reported paths, even the corrected resolution misses
      `dir/file`: the map of `dir` is keyed by `dir/file`, and the segment
      looked up there is `file`. */
  lemma NestedFullPathMissed(dir: string, file: string)
    requires dir != "" && Separator !in dir && Separator !in file
    ensures GetChildFresh(RootHeap(), 0, NestedFull(dir, file), s => s, dir + [Separator] + file).result == Ok(None)
  {
    var fs := NestedFull(dir, file);
    var path := dir + [Separator] + file;
    var f := BEntry(path, File, []);
    var d := BEntry(dir, Directory, [f]);
    var bs := fs.backends;
    assert bs[1..] == [];
    assert Flatten(bs, "") == [d];
    assert Flatten(bs, dir) == [f];
    RootHeapValid();
    assert CachesCurrent(RootHeap(), fs);
    var h1 := Refresh(RootHeap(), 0, fs);
    assert CacheCurrent(h1, 0, fs);
    assert dir in Keys(Flatten(bs, ""));
    SeparatedParts(dir, file);
    ResolveFreshDescends(RootHeap(), 0, fs, path, |dir|);
    var j := h1[0].mapping[dir];
    assert h1[j].Path() == dir;
    assert file != path by {
      assert |file| < |path|;
    }
    assert file !in Keys(Flatten(bs, dir));
  }
}
